=== FILE: README.md ===
# Sudreg company store — a Dafny model

This project models the core of a small Python tool that mirrors the Croatian
court register (Sudski registar, "sudreg") into a local JSON file. It covers
three parts:

- **The company record** (`db/data_models.py`). `Company(**kwargs)` builds a
  record. `to_dict` gives its dict form. `inject_details` projects a registry
  detail document onto the flat fields, statement by statement, and stops at
  the first statement that raises.
- **The store** (`db/db.py`). The store is a map from `mbs` (the register
  number) to companies, kept in insertion order. It also holds a job-status
  value, a dirty flag and a backing file. The model covers `add_company`, the
  three lookups (by `mbs`, by `oib`, by name), `to_dict`/`from_dict`,
  `save_to_file`/`load_from_file`, `count`, `clear` and the job-status
  setter and getter.
- **The sync service** (`services/sudreg_service.py`).
  - `fetch_all_companies` fetches the company list page by page from an
    offset. It keeps the records whose name contains the configured filter,
    and after each page it writes the next offset into the job status and
    saves the store, so an interrupted fetch can resume.
  - `fetch_company_details` enriches every stored company with its details.
    A failure for one company is caught, and every fifth success saves the
    store.
  - `set_fetch_job_status` writes an offset into the job status.

Python values are modelled as a JSON-shaped `Value` (`PyValues`). An exception
is an `Exc` carried in a `Result`. Where Python mutates state and then raises,
the model returns the state reached together with the exception:
`Injection` for `inject_details`, `Added`, `Step` and `Run` for the fetch
loop, and the partly enriched record for the details loop.

Things the model takes as parameters:

- The store's file is a value `StoredFile`: missing, not JSON, or a JSON
  document.
- The registry is given as its replies: a sequence of page replies in
  request order, and a function from `mbs` to a detail reply.
- The interactive prompts are a `bool` (resume or not) and the answer
  string to "Continue? [y/N]".
- The company filter is an `Option<string>`.

Modules:

| file | module | models |
|---|---|---|
| `py_values.dfy` | `PyValues` | values, exceptions, `.get`, subscripts, `len`, `> 0`, `str` |
| `text.dfy` | `Text` | `str.lower`, `str.find`, `str.join` |
| `data_models.dfy` | `DataModels` | `Company`, `to_dict`, `inject_details` |
| `db.dfy` | `Database` | `Database` and its file round trip |
| `sudreg_service.dfy` | `SudregService` | `fetch_all_companies`, `set_fetch_job_status` |
| `sudreg_enrichment.dfy` | `SudregEnrichment` | `fetch_company_details` |

## Model

| member | source | states |
|---|---|---|
| PyValues.GetMethod | db/data_models.py:62-71 | `x.get(k, d)` succeeds exactly on a dict. It gives the stored value when the key is present and the default when it is absent; on anything else it raises AttributeError. |
| PyValues.Subscript | db/db.py:61 | `v[k]` succeeds exactly when `v` is a dict holding `k` and then gives that entry. A dict without the key raises KeyError. |
| PyValues.Len | db/data_models.py:68 | `len` is defined exactly on str, list and dict; a list gives its number of items. |
| PyValues.GreaterThanZero | services/sudreg_service.py:22 | `v > 0` is defined exactly on ints and booleans; for an int it is the integer comparison. |
| PyValues.IterateMappings | db/db.py:61 | The elements a `[e[k] for e in v]` comprehension subscripts: a list yields its items. Only an empty str or an empty dict yields nothing without raising; anything else that is not a list raises. |
| PyValues.DecimalRoundTrip | db/data_models.py:65 | `str(n)` of a house number is a decimal text that reads back as `n`. |
| PyValues.StrOf | db/data_models.py:65 | `str(v)` is the text itself for a str, the decimal digits for an int and `None` for None. |
| Text.Find | db/db.py:31 | `find` returns -1 exactly when the needle occurs nowhere. Otherwise it returns an index where the needle occurs, and no smaller index matches. |
| Text.ContainsIffOccurs | db/db.py:31 | The test `find(...) > -1` holds exactly when the needle is a substring. |
| Text.JoinAppend | db/data_models.py:67 | `sep.join` of two non-empty lists one after the other is the join of the first, then `sep`, then the join of the second. |
| Text.JoinCons | db/data_models.py:67 | `sep.join` of a part followed by a non-empty list is that part, `sep`, and the join of the rest. |
| DataModels.KeyTextInjective | db/data_models.py:41-58 | The 15 dict keys of `to_dict` are pairwise distinct, and none is `self`. |
| DataModels.FieldsDetermineCompany | db/data_models.py:3-18 | A company is determined by its 15 fields. |
| DataModels.Create | db/data_models.py:20-35 | `Company(**bag)` fails exactly when the bag has a `self` keyword. Otherwise each field is `bag.get(key)`, with `status` defaulting to 0 and every other field defaulting to None. |
| DataModels.ToDict | db/data_models.py:41-58 | `to_dict` maps each field's keyword to that field's value, has no other key, and has no `self` key, so it can be passed back as keyword arguments. |
| DataModels.CreateFromDict | db/data_models.py:20-58 | `Company(**c.to_dict())` rebuilds `c` exactly. |
| DataModels.AddressesOf | db/data_models.py:67 | `[e['adresa'] for e in es]` succeeds exactly when every element is a dict with an `adresa` key, and then lists those values in order. |
| DataModels.JoinValues | db/data_models.py:67 | `', '.join(vs)` succeeds exactly when every part is a str, and then gives `Text.Join` of their texts. |
| DataModels.StatementsRun | db/data_models.py:60-71 | The number of statements that run is the position of the first one that raises, or all of them when none raises. |
| DataModels.InjectDetails | db/data_models.py:60-71 | `inject_details` never touches `mbs`, `ime`, `telefonski_brojevi` or `ostalo`. Details that are not a dict raise AttributeError and leave the record unchanged. |
| DataModels.NotInjected | db/data_models.py:60-71 | The fields `inject_details` never assigns are exactly `mbs`, `ime`, `telefonski_brojevi` and `ostalo`. |
| DataModels.InjectFollowsStatements | db/data_models.py:60-71 | After `inject_details` on a dict, each assigned field holds its statement's value if that statement ran, and its old value if not. The exception raised is that of the first failing statement. |
| DataModels.InjectOverwrites | db/data_models.py:60-71 | A successful injection does not depend on the record it starts from: two records given the same details agree on every assigned field. |
| DataModels.MissingPathsValues | db/data_models.py:61-71 | For a dict without any of the six keys `pretezita_djelatnost`, `sjediste`, `tvrtka`, `email_adrese`, `gfi` and `pravni_oblik`, each statement takes its default: `''`, `' '` for the address, 0 for the report count and the details' own `oib` and `status`. The legal-form statement raises AttributeError. |
| DataModels.MissingPathsRun | db/data_models.py:61-71 | With all six of those keys missing, exactly the first ten statements run. |
| DataModels.MissingPathsYieldEmpty | db/data_models.py:61-71 | With all six of those keys missing, the record takes the default values, keeps its old legal form and the call raises AttributeError. |
| DataModels.NestedGetCases | db/data_models.py:62-66 | `d.get(outer, {}).get(inner, default)` gives the default when `outer` is absent or holds a dict without `inner`. It gives the stored value when the path exists, and raises exactly when `outer` holds something other than a dict. |
| DataModels.AddressCases | db/data_models.py:65 | The address is `ulica + ' ' + str(kucni_broj)` for a str street and an int number. It is the street and a space without a number, and a lone space with neither. A street that is not a str raises TypeError. |
| DataModels.AddressNumberReadsBack | db/data_models.py:65 | In the address, everything after the street and its space is decimal digits that read back as the house number. |
| DataModels.InjectedNestedFields | db/data_models.py:62-70 | After a successful injection, each field read from a nested object holds the value at its path, or `''` when the path is absent, whatever the other keys hold. An absent `sjediste` gives the address `' '`. |
| DataModels.EmailTextOfList | db/data_models.py:67 | A list of e-mail entries that joins without raising gives their addresses separated by `', '`. |
| DataModels.InjectedEmails | db/data_models.py:67 | After a successful injection, `email_adrese` is `''` when the details have no e-mail list, and otherwise the addresses joined with `', '`. |
| DataModels.InjectedCounts | db/data_models.py:68-69 | After a successful injection, `gfi_count` is the length of the `gfi` list (0 when missing) and `status` is the details' `status` (0 when missing). |
| DataModels.MissingLegalFormRaises | db/data_models.py:71 | Without `pravni_oblik.vrsta_pravnog_oblika` the last statement calls `get` on None, so the call always raises and `pravni_oblik` keeps its old value. |
| Database.Empty | db/db.py:38-50 | The store built from a missing or unreadable file is empty, valid and clean. |
| Database.GetAllCompanies | db/db.py:64-65 | `get_all_companies` lists every stored company once, in insertion order; each company sits under its own `mbs`. |
| Database.DistinctSetSize | db/db.py:67-68 | A key order without repeats has as many distinct keys as entries, so `count` is the number of companies. |
| Database.Count | db/db.py:67-68 | `count` is the length of `get_all_companies`. |
| Database.GetCompanyByMbs | db/db.py:24-25 | The lookup by `mbs` raises TypeError exactly for an unhashable key. It returns a stored company with that `mbs` if there is one, and None exactly when no stored company has it. |
| Database.AddCompany | db/db.py:15-22 | Adding raises TypeError exactly for an unhashable `mbs`. For an `mbs` already stored it raises AttributeError, because `update_with_values` does not exist. Otherwise the company is appended, the count grows by one, the job status and file are kept and the store is dirty. |
| Database.AddThenGet | db/db.py:15-25 | After a successful add, the lookup by the new `mbs` finds the added company, and every other lookup is unchanged. |
| Database.FirstWithOib | db/db.py:28 | The scan returns None exactly when no company has the `oib`. Otherwise it returns the position of the first one that does. |
| Database.GetCompanyByOib | db/db.py:27-28 | The lookup by `oib` returns None exactly when no stored company has that `oib`. Otherwise it returns a stored company, the first in insertion order. |
| Database.SelectByName | db/db.py:31 | The name filter succeeds exactly when every name is a str. It keeps exactly the companies whose lower-cased name contains the needle. |
| Database.SelectByNameAppend | db/db.py:31 | The name filter distributes over concatenation, so it keeps the store's order. |
| Database.SelectByNameSingle | db/db.py:31 | On one company the name filter keeps it exactly when its lower-cased name contains the needle. |
| Database.GetCompanyListByName | db/db.py:30-31 | An empty name gives `[]`. Any other name gives exactly the companies whose lower-cased name contains the lower-cased name, and raises when some stored name is not a str. |
| Database.ListByNameAfterAdd | db/db.py:15-31 | Adding a company with a str name appends it to the end of every search it matches and leaves the other searches unchanged, so a search lists its companies in insertion order. |
| Database.Clear | db/db.py:70-76 | `clear` empties only the collections it is asked to, and always marks the store dirty. |
| Database.SetFetchJobStatus | db/db.py:78-80 | Setting the job status keeps the companies and the file and marks the store dirty. |
| Database.SetThenGetStatus | db/db.py:78-83 | `get_fetch_job_status` returns exactly what was last set. |
| Database.StatusSurvivesReload | db/db.py:33-83 | A job status that was set and saved is what `get_fetch_job_status` returns after the file is loaded again. |
| Database.Records | db/db.py:53 | The saved company list holds, in order, the `to_dict` of each company. |
| Database.ToDict | db/db.py:52-58 | The saved document has exactly the keys `companies` and `fetch_job_status`: the company records in insertion order and the job status. |
| Database.Entry | db/db.py:61 | One record of the comprehension succeeds only on a dict with an `mbs` key whose `Company(**record)` succeeds. The key is then hashable and is the new company's `mbs`. |
| Database.BuildStoreOutcome | db/db.py:61 | The comprehension raises exactly when some record does. Otherwise every record's key is stored, and there are no more keys than records. |
| Database.EntryOfRecord | db/db.py:61 | The record `to_dict` writes for a company with a hashable `mbs` reads back as that company. |
| Database.BuildStoreValid | db/db.py:61 | The store the dict comprehension builds keeps each key once, under the `mbs` of its company. |
| Database.FromDict | db/db.py:60-62 | `from_dict` raises TypeError for a document that is not a dict and KeyError without `companies`. The job status defaults to `{}`. |
| Database.SaveToFile | db/db.py:33-36 | Saving writes the store's document to the file and clears the dirty flag; companies and job status stay. |
| Database.LoadFromFile | db/db.py:38-50 | Loading gives an empty store for a missing or non-JSON file. Any store it loads is valid, clean and bound to that file. |
| Database.BuildStoreStep | db/db.py:61 | A record with a new key appends that key to the rebuilt store. |
| Database.BuildStorePrefix | db/db.py:61 | Rebuilding from the first `n` saved records gives the first `n` keys and their companies. |
| Database.RecordsReadBack | db/db.py:53-61 | Every saved record reads back as the company it was written from. |
| Database.BuildStoreAll | db/db.py:53-61 | Rebuilding from the saved records gives back the same keys in the same order, and the same companies. |
| Database.FromDictToDict | db/db.py:52-62 | `from_dict(to_dict())` restores the companies, their order and the job status. |
| Database.LoadAfterSave | db/db.py:33-50 | Loading the file just saved gives back the saved store, clean. |
| SudregService.SetJobOffset | services/sudreg_service.py:92-96 | A truthy offset is written under `'offset'` and the other keys are kept. A falsy or missing offset keeps the status. It raises TypeError exactly when a truthy offset meets a status that is not a dict. Either way the store becomes dirty. |
| SudregService.Begin | services/sudreg_service.py:18-32 | The resume decision. It raises when a truthy status has no `get` or its offset does not compare with 0. A positive offset and a yes resume there with the store kept. Otherwise the store is emptied and the fetch starts at 0, and the job status is cleared when there was an offset to decline. |
| SudregService.RecordMatches | services/sudreg_service.py:39 | A page record matches exactly when its lower-cased `ime` contains the needle. It raises unless the record is a dict with a str `ime`. |
| SudregService.SelectRecords | services/sudreg_service.py:39 | The comprehension keeps exactly the matching records and raises when any record cannot be tested. |
| SudregService.SelectRecordsAppend | services/sudreg_service.py:39 | The filter distributes over concatenation, so page order is kept. |
| SudregService.SelectRecordsSingle | services/sudreg_service.py:39 | One record is kept exactly when it can be tested and its name matches; it raises exactly when it cannot be tested. |
| SudregService.Kept | services/sudreg_service.py:39 | Without a truthy filter no record is kept; with one, the records whose lower-cased name contains the lower-cased filter are kept. |
| SudregService.CreatedAll | services/sudreg_service.py:40-41 | One company is created per kept record. |
| SudregService.CreatedAllAt | services/sudreg_service.py:41 | The `i`-th company added is `Company(**record)` of the `i`-th kept record. |
| SudregService.AddAll | services/sudreg_service.py:40-41 | Adding a page's kept records keeps the old companies as a prefix. Without an exception it appends exactly the created companies, in order. The store is dirty once anything was added. |
| SudregService.CreatedAllAppend | services/sudreg_service.py:40-41 | Creating the companies of two record lists one after the other gives the concatenation. |
| SudregService.AllCreateAppend | services/sudreg_service.py:40-41 | Two record lists whose every record creates a company make a list whose every record does. |
| SudregService.Checkpoint | services/sudreg_service.py:43-45 | After a page, the new offset is written and the store saved: the file holds the store, which is clean. A non-zero offset is written into the job status, with every other entry of the status kept. An offset of 0 leaves the status as it was. Writing a non-zero offset into a status that is not a dict raises TypeError. |
| SudregService.WithOffsetTwice | services/sudreg_service.py:92-96 | Writing an offset into a status that already had one written leaves only the second, with the other entries of the original status kept. |
| SudregService.PageStepEffect | services/sudreg_service.py:35-46 | One pass of the loop. A failed request or an empty page stops it with the store untouched, and only an empty page stops without an exception. A pass that goes on has added the kept records, advanced the offset by the page's full length, written that offset into the job status with its other entries kept, and saved the store. No pass loses a company. A pass that stops leaves the file and the job status alone. Its store is the one it started from when nothing was added, and dirty otherwise. |
| SudregService.PageStepOutcome | services/sudreg_service.py:39-45 | A non-empty page goes on exactly when the filter raises nothing, every kept record is added and the checkpoint is written. Otherwise the exception is the filter's, the first failed addition's (with the earlier additions kept), or the checkpoint's TypeError. |
| SudregService.Pull | services/sudreg_service.py:34-46 | The `while True` loop. Requests go out at the start offset, each advanced by the length of the page before, until an empty page or an exception. Every page before the last request is non-empty, and a run without an exception ends on an empty page. Without an exception the store ends as the old companies plus the kept records of every page. A run that fetched a page leaves on file a clean save. From a non-negative start, that save holds the starting job status with the last offset requested written in and its other entries kept. That save holds the old companies plus the kept records of every page before the last request, even when the run ends in an exception. The store returned has the saved job status. It is the saved store when nothing was added after the save, and dirty otherwise, so a run without an exception is clean. A run of one request keeps the file and the job status, and returns the store it started from or a dirty one. The run ends exactly as the pass on its last request, from the store last saved, says it ends. It raises nothing exactly when every pass up to the first empty page goes on. With no filter, a dict job status, a non-negative start and only page replies, it raises nothing. |
| SudregService.PullOn | services/sudreg_service.py:39-46 | The loop after a non-empty page was added and saved keeps every promise of the whole loop, counted from that page, including the job status of the last save and of the store returned. |
| SudregService.StopRun | services/sudreg_service.py:36-37 | A run that stops at its first request made one request, left the file alone, and ended as that pass says. It raised nothing exactly when that page was empty. |
| SudregService.ContinueEnded | services/sudreg_service.py:34-46 | A run that goes on after a non-empty page ends as the rest of the loop ends. |
| SudregService.ContinueCompletes | services/sudreg_service.py:34-46 | A run that goes on after a non-empty page raises nothing exactly when the rest of the loop raises nothing. |
| SudregService.NoFilterCompletes | services/sudreg_service.py:34-45 | With no filter, a dict job status, a non-negative offset and only page replies, every pass up to the first empty page goes on. |
| SudregService.Loop | services/sudreg_service.py:34-46 | The loop from its first request. It requests the offsets of the pages and gathers their kept records. Its last save is clean, holds every page before the last request, and from a non-negative start holds the starting job status with the last offset written in. The store returned has the saved status, and is the saved store or dirty. With no filter, a dict job status, a non-negative start and only page replies, it raises nothing. |
| SudregService.RequestsStep | services/sudreg_service.py:43 | A run after a non-empty page continues at the offset advanced by that page's length. |
| SudregService.GatheredStep | services/sudreg_service.py:39-43 | A page's kept records come before those of later pages in the store. |
| SudregService.ContinueGathered | services/sudreg_service.py:35-46 | A run that continues after a non-empty page requests the offsets of the loop from that page on. Without an exception it gathers that page's kept records before those of later pages. |
| SudregService.ContinueSaved | services/sudreg_service.py:43-46 | The same run keeps the checkpoint promises, and its last save holds every page fetched before the last request. |
| SudregService.DurableStep | services/sudreg_service.py:39-45 | The last save after more pages holds the companies of the first page followed by those of the later ones. |
| SudregService.SavedStep | services/sudreg_service.py:43-45 | Each non-empty page leaves the file holding the offset after it, in the job status the loop started from with its other entries kept; a later checkpoint overwrites only that offset. A run ending normally is saved and clean. |
| SudregService.FetchAll | services/sudreg_service.py:17-48 | The whole fetch. It raises before any request exactly when the status is truthy but has no usable offset, and then leaves the store unchanged. A resume starts at the stored offset and keeps the old companies first. A restart starts at 0 with an empty store. On success the store holds the kept records of every page and the companies returned are the store's. Once a page was fetched, a successful run is saved and clean. A run whose first page is empty writes nothing, so on a restart the emptied store is not on file. Once a page was fetched, the last save is clean and holds the companies the run started from (none on a restart) plus the kept records of every page before the last request, even when the run ends in an exception. That save holds the stored job status with the last offset written in and its other entries kept, or only `{'offset': last}` after a declined resume. The store returned has that status and is the saved store or dirty. A fetch of one request keeps the job status, or leaves `{}` after a declined resume. With no filter, only page replies and a dict job status with a usable offset, the fetch succeeds: it stops at the first empty page, and every page before it was non-empty. |
| SudregService.FetchLoop | services/sudreg_service.py:34-48 | The fetch after a prologue that raised nothing keeps every promise of the whole fetch, and its first request is at the offset the prologue chose. |
| SudregService.FetchOutcome | services/sudreg_service.py:17-46 | A loop run from the store and offset the prologue chose gives the whole fetch's requests, its gathered companies on a resume and on a restart, and its last save. |
| SudregService.FetchStatus | services/sudreg_service.py:17-45 | A loop run from the prologue's store leaves the job status the fetch promises. A resume keeps the stored status with the last offset written in, a declined resume keeps only that offset, and one request keeps the prologue's status. |
| SudregService.NoFilterKeepsNothing | services/sudreg_service.py:39 | With no truthy filter, the filtering succeeds exactly when every reply is a page, and nothing is kept. |
| SudregService.AdvanceGrows | services/sudreg_service.py:43 | Over non-empty pages the offset strictly grows. |
| SudregService.RequestsIncrease | services/sudreg_service.py:34-46 | The offsets requested strictly increase. From a non-negative start every later request is positive. |
| SudregService.ReopenResumes | services/sudreg_service.py:22-26 | A store saved with a positive offset reloads as itself, and the next fetch resumes at that offset when the answer is yes. |
| SudregEnrichment.TryDetails | services/sudreg_service.py:60-75 | The `try` body for one company keeps its `mbs`. A failed request is caught with the company untouched. |
| SudregEnrichment.EnrichedUpTo | services/sudreg_service.py:59-62 | Visiting companies keeps the set of stored keys. |
| SudregEnrichment.EnrichedUpToKeys | services/sudreg_service.py:59-62 | Every company stays under its own `mbs` while the loop runs. |
| SudregEnrichment.EnrichedUpToAt | services/sudreg_service.py:59-62 | After `n` passes, a company has been visited exactly when it comes before the `n`-th, and visiting one company leaves the others as they were. |
| SudregEnrichment.Snapshot | services/sudreg_service.py:66-67 | The store at a save is valid and keeps the key order and the job status. |
| SudregEnrichment.Successes | services/sudreg_service.py:63 | The success count never exceeds the number of companies visited. |
| SudregEnrichment.EnrichAll | services/sudreg_service.py:59-75 | The loop. Each stored company, in store order, becomes the result of its attempt. `processed_count` is the number of successes. There is a save at every fifth success and only there. The store is clean once it has been saved, and the file holds the store as of the last save. |
| SudregEnrichment.Finish | services/sudreg_service.py:59-75 | After the loop every company has been visited, and the file is the store as of the last save. |
| SudregEnrichment.VisitedAll | services/sudreg_service.py:59-62 | After the loop each stored company is its attempt's result. |
| SudregEnrichment.PassesEnrich | services/sudreg_service.py:59-68 | After any number of passes the companies, count, saves and dirty flag are as the loop invariant states. |
| SudregEnrichment.PassesVisit | services/sudreg_service.py:59-62 | After `i` passes exactly the first `i` companies have been visited. |
| SudregEnrichment.VisitEnriches | services/sudreg_service.py:61-62 | A pass replaces only the next company. |
| SudregEnrichment.PassesSave | services/sudreg_service.py:63-67 | After `i` passes the count, the saves and the dirty flag match the successes among the first `i` companies. |
| SudregEnrichment.SaveStep | services/sudreg_service.py:63-67 | A pass keeps the count, the saves and the dirty flag in step. |
| SudregEnrichment.VisitSaves | services/sudreg_service.py:63-67 | A pass saves exactly when its success brings the count to a multiple of five. |
| SudregEnrichment.SavedAtExtend | services/sudreg_service.py:66-67 | A success that reaches a multiple of five records a save right after that company. |
| SudregEnrichment.ProceedsIff | services/sudreg_service.py:55-57 | The loop runs exactly for the answers `y` and `Y`; an empty answer counts as `n`. |
| SudregEnrichment.Attempt | services/sudreg_service.py:61-62 | The per-company attempt keeps every company's `mbs`. |
| SudregEnrichment.FetchCompanyDetails | services/sudreg_service.py:50-75 | Any answer other than yes leaves the store alone. Otherwise each stored company becomes the result of its `try` body for its registry reply. `processed_count` counts the successes, there is a save at each fifth success, and the file holds the store as of the last save. |
| SudregEnrichment.UnsavedTail | services/sudreg_service.py:63-68 | A clean store ends the loop clean. It is saved only when there were at least five successes, and the file reflects `5 * (processed // 5)` successes. |
| SudregEnrichment.FetchCompanyDetailsSaved | services/sudreg_service.py:50-75 | With a save after the loop, each company is its attempt's result and the success count is as before. The store ends clean, and its file reads back as the fully enriched store. |

## Left out

- Floating-point values: JSON numbers are modelled as ints only.
- `str` of a list or dict: `PyValues.StrOf` gives a fixed stand-in text, because Python's `repr` is not spelled out. It only matters for a `kucni_broj` that is a container.
- `str.lower` covers ASCII, Latin-1 and the Croatian capitals Č, Ć, Đ, Š and Ž; other characters are taken to be their own lower case.
- Python's `1 == True` and `hash(1) == hash(True)` are not modelled: `Int(1)` and `Bool(true)` are different keys and values.
- A stored offset of `True` compares greater than 0 and is taken to resume at 1. Arithmetic on it beyond that is not modelled.
- `config.company_filter`: `config/config.py` defines no such attribute. The filter is a parameter of the fetch, and `None` stands for a falsy filter. With the code as written, the attribute lookup on line 39 raises AttributeError on the first record of the first non-empty page, after a restart cleared the companies, or with them kept on a resume. The model does not represent that failure. `config.db_file_path` (`use_cases/main_menu.py:18`) is missing from `Config` too; the store's file is a parameter here.
- `store_company_details_locally` (services/sudreg_service.py:77-79) writes a dict with `f.write`, which raises TypeError. The surrounding `try` catches that after the count and the save, so the store is unchanged. The file it creates or truncates under `data/details/` is outside the store and is not modelled.
- File I/O and JSON text: the file is a `StoredFile` value. JSON encoding and decoding are the identity on `Value`, except that a file that is not JSON is its own case.
- Page replies are taken to be lists of records. A reply that is not a list is not modelled.
- The registry is given as a finite sequence of page replies, and every request past its end gets an empty page. A registry that never returns an empty page, which leaves the `while True` loop (services/sudreg_service.py:34) running forever, cannot be represented.
- Printing, coloured output and the job-status messages are not modelled.
- The registry is a function of `mbs`: a second request for the same `mbs` gets the same reply. HTTP, retries and authentication (`api_clients/`) are not part of this model.
- `export_to_csv` and the CompanyWall client are not part of this model.
- The menu of `use_cases/main_menu.py` is not modelled, apart from its call of `fetch_company_details` with `db.get_all_companies()`. Because of that call, the loop's companies are the store's own objects.
- Where the code and the documented behaviour disagree, the model follows the code:
  - `add_company` on a stored `mbs` calls the undefined `update_with_values`. It raises AttributeError and leaves the store, including its dirty flag, unchanged.
  - `load_from_file` catches only `JSONDecodeError`, so a JSON document without `companies` raises KeyError out of the constructor.
  - The company filter keeps matching records: there is no exclusion filter.
  - The details loop has no cache and does not skip companies that are already enriched.
- `SudregService.FetchAll`: does not restate `SudregService.Pull`'s account of how the loop ended, namely the pass on the last request and success exactly when every pass up to the first empty page goes on. The fetch runs that loop through `SudregService.Loop` from the store `Begin` leaves, but the account is proved only for `Pull`. At this level the contract says that an exception means the last reply was not an empty page, and that a run with no filter and only page replies succeeds.
- `SudregEnrichment.FetchCompanyDetails`: the file is written once per save, from the store as it stood at that save. Every `save_db()` overwrites the whole file, so only the last save decides what is on file.

## Findings

| source | as written | input that shows it | evidently intended | confidence | as-written member | corrected member |
|---|---|---|---|---|---|---|
| services/sudreg_service.py:63-68 | The store is saved only at every fifth success, and the loop never marks it dirty. The successes after the last multiple of five are in no save. `use_cases/main_menu.py:85-86` saves only a dirty store, so quitting loses them. | A clean store with three companies whose details requests all succeed: the loop ends with the file unchanged and the store clean. | A final save after the loop, so that every enrichment reaches the file. | not executed; follows from the code as read | SudregEnrichment.UnsavedTail | SudregEnrichment.FetchCompanyDetailsSaved |

=== FILE: data_models.dfy ===
/** The company record of `db/data_models.py`: its construction from a keyword
    bag, its dict shape, and the projection of a registry detail document onto
    its flat fields. */
module DataModels {
  import opened PyValues
  import opened Text

  /** One company. Every field holds whatever Python value it was given. */
  datatype Company = Company(
    mbs: Value,
    ime: Value,
    oib: Value,
    djelatnostSifra: Value,
    djelatnostNaziv: Value,
    zupanija: Value,
    adresa: Value,
    naselje: Value,
    emailAdrese: Value,
    telefonskiBrojevi: Value,
    ostalo: Value,
    gfiCount: Value,
    status: Value,
    naznakaImena: Value,
    pravniOblik: Value)

  /** The keyword of each field: the keys of the dict form. */
  datatype Key =
    | Mbs | Ime | Oib | DjelatnostSifra | DjelatnostNaziv | Zupanija | Adresa | Naselje
    | EmailAdrese | TelefonskiBrojevi | Ostalo | GfiCount | Status | NaznakaImena | PravniOblik

  /** Every key, in the order `to_dict` writes them. */
  const AllKeys: seq<Key> := [
    Mbs, Ime, Oib, DjelatnostSifra, DjelatnostNaziv, Zupanija, Adresa, Naselje,
    EmailAdrese, TelefonskiBrojevi, Ostalo, GfiCount, Status, NaznakaImena, PravniOblik]

  /** The keyword text of a key. */
  function KeyText(k: Key): string {
    match k
    case Mbs => "mbs"
    case Ime => "ime"
    case Oib => "oib"
    case DjelatnostSifra => "djelatnost_sifra"
    case DjelatnostNaziv => "djelatnost_naziv"
    case Zupanija => "zupanija"
    case Adresa => "adresa"
    case Naselje => "naselje"
    case EmailAdrese => "email_adrese"
    case TelefonskiBrojevi => "telefonski_brojevi"
    case Ostalo => "ostalo"
    case GfiCount => "gfi_count"
    case Status => "status"
    case NaznakaImena => "naznaka_imena"
    case PravniOblik => "pravni_oblik"
  }

  /** Distinct fields have distinct keywords, and none of them is `self`. */
  lemma KeyTextInjective(a: Key, b: Key)
    ensures KeyText(a) == KeyText(b) ==> a == b
    ensures KeyText(a) != "self"
  {
    if KeyText(a) == KeyText(b) {
      match a
      case Mbs => assert KeyText(a)[0] == 'm';
      case _ =>
    }
  }

  /** The field a key names. */
  function Field(c: Company, k: Key): Value {
    match k
    case Mbs => c.mbs
    case Ime => c.ime
    case Oib => c.oib
    case DjelatnostSifra => c.djelatnostSifra
    case DjelatnostNaziv => c.djelatnostNaziv
    case Zupanija => c.zupanija
    case Adresa => c.adresa
    case Naselje => c.naselje
    case EmailAdrese => c.emailAdrese
    case TelefonskiBrojevi => c.telefonskiBrojevi
    case Ostalo => c.ostalo
    case GfiCount => c.gfiCount
    case Status => c.status
    case NaznakaImena => c.naznakaImena
    case PravniOblik => c.pravniOblik
  }

  /** Two companies that agree on every field are the same company. */
  lemma FieldsDetermineCompany(a: Company, b: Company)
    requires forall k: Key :: Field(a, k) == Field(b, k)
    ensures a == b
  {
    assert a.mbs == b.mbs by { assert Field(a, Mbs) == Field(b, Mbs); }
    assert a.ime == b.ime by { assert Field(a, Ime) == Field(b, Ime); }
    assert a.oib == b.oib by { assert Field(a, Oib) == Field(b, Oib); }
    assert a.djelatnostSifra == b.djelatnostSifra by { assert Field(a, DjelatnostSifra) == Field(b, DjelatnostSifra); }
    assert a.djelatnostNaziv == b.djelatnostNaziv by { assert Field(a, DjelatnostNaziv) == Field(b, DjelatnostNaziv); }
    assert a.zupanija == b.zupanija by { assert Field(a, Zupanija) == Field(b, Zupanija); }
    assert a.adresa == b.adresa by { assert Field(a, Adresa) == Field(b, Adresa); }
    assert a.naselje == b.naselje by { assert Field(a, Naselje) == Field(b, Naselje); }
    assert a.emailAdrese == b.emailAdrese by { assert Field(a, EmailAdrese) == Field(b, EmailAdrese); }
    assert a.telefonskiBrojevi == b.telefonskiBrojevi by { assert Field(a, TelefonskiBrojevi) == Field(b, TelefonskiBrojevi); }
    assert a.ostalo == b.ostalo by { assert Field(a, Ostalo) == Field(b, Ostalo); }
    assert a.gfiCount == b.gfiCount by { assert Field(a, GfiCount) == Field(b, GfiCount); }
    assert a.status == b.status by { assert Field(a, Status) == Field(b, Status); }
    assert a.naznakaImena == b.naznakaImena by { assert Field(a, NaznakaImena) == Field(b, NaznakaImena); }
    assert a.pravniOblik == b.pravniOblik by { assert Field(a, PravniOblik) == Field(b, PravniOblik); }
  }

  /** `Company(**bag)`. Keywords that name no field are ignored; a `self`
      keyword collides with the constructor's own first parameter and raises
      TypeError. */
  function Create(bag: map<string, Value>): (r: Result<Company>)
    ensures r.Ok? <==> "self" !in bag
    ensures r.Ok? ==> forall k: Key ::
      Field(r.value, k) == (if KeyText(k) in bag then bag[KeyText(k)] else if k == Status then Int(0) else Null)
  {
    if "self" in bag then Err(TypeError)
    else Ok(Company(
      mbs := Get(bag, "mbs", Null),
      ime := Get(bag, "ime", Null),
      oib := Get(bag, "oib", Null),
      djelatnostSifra := Get(bag, "djelatnost_sifra", Null),
      djelatnostNaziv := Get(bag, "djelatnost_naziv", Null),
      zupanija := Get(bag, "zupanija", Null),
      adresa := Get(bag, "adresa", Null),
      naselje := Get(bag, "naselje", Null),
      emailAdrese := Get(bag, "email_adrese", Null),
      telefonskiBrojevi := Get(bag, "telefonski_brojevi", Null),
      ostalo := Get(bag, "ostalo", Null),
      gfiCount := Get(bag, "gfi_count", Null),
      status := Get(bag, "status", Int(0)),
      naznakaImena := Get(bag, "naznaka_imena", Null),
      pravniOblik := Get(bag, "pravni_oblik", Null)))
  }

  /** The keyword of every field mapped to its value. */
  function FieldMap(c: Company): map<string, Value> {
    map k: Key | k in AllKeys :: KeyText(k) := Field(c, k)
  }

  /** The entry of `FieldMap` under a key's keyword holds that key's field. */
  lemma FieldMapEntry(c: Company, k: Key)
    ensures KeyText(k) in FieldMap(c) && FieldMap(c)[KeyText(k)] == Field(c, k)
  {
    assert k in AllKeys;
    var r := FieldMap(c);
    assert KeyText(k) in r;
    var k' :| k' in AllKeys && KeyText(k') == KeyText(k) && r[KeyText(k)] == Field(c, k');
    KeyTextInjective(k, k');
  }

  /** `c.to_dict()`: one entry per field, keyed by its keyword, and nothing
      else. No entry is keyed `self`, so the dict can be passed back as
      keyword arguments. */
  function ToDict(c: Company): (r: map<string, Value>)
    ensures "self" !in r
    ensures forall k: Key :: KeyText(k) in r && r[KeyText(k)] == Field(c, k)
    ensures forall key :: key in r ==> exists k: Key :: key == KeyText(k)
  {
    assert "self" !in FieldMap(c) by {
      if "self" in FieldMap(c) {
        var k :| k in AllKeys && KeyText(k) == "self";
        KeyTextInjective(k, k);
      }
    }
    forall k: Key
      ensures KeyText(k) in FieldMap(c) && FieldMap(c)[KeyText(k)] == Field(c, k)
    {
      FieldMapEntry(c, k);
    }
    FieldMap(c)
  }

  /** `Company(**c.to_dict())` rebuilds `c`. */
  lemma CreateFromDict(c: Company)
    ensures Create(ToDict(c)) == Ok(c)
  {
    var r := Create(ToDict(c)).value;
    assert forall k: Key :: Field(r, k) == Field(c, k);
    FieldsDetermineCompany(r, c);
  }

  /** `[e['adresa'] for e in es]`: the first element that is not a dict with an
      `adresa` key raises. */
  function AddressesOf(es: seq<Value>): (r: Result<seq<Value>>)
    ensures r.Ok? <==> forall i :: 0 <= i < |es| ==> es[i].Dict? && "adresa" in es[i].entries
    ensures r.Ok? ==> |r.value| == |es| && forall i :: 0 <= i < |es| ==> r.value[i] == es[i].entries["adresa"]
  {
    if es == [] then Ok([])
    else
      var first :- Subscript(es[0], "adresa");
      var rest :- AddressesOf(es[1..]);
      Ok([first] + rest)
  }

  /** The `adresa` text of each e-mail entry (empty for a malformed entry). */
  function AddressStrings(es: seq<Value>): seq<string> {
    seq(|es|, i requires 0 <= i < |es| =>
      if es[i].Dict? && "adresa" in es[i].entries && es[i].entries["adresa"].Str? then es[i].entries["adresa"].s else "")
  }

  /** The texts of a run of values, `""` standing for a value that is not a
      str. */
  function Texts(vs: seq<Value>): (ts: seq<string>)
    ensures |ts| == |vs|
  {
    seq(|vs|, i requires 0 <= i < |vs| => if vs[i].Str? then vs[i].s else "")
  }

  /** `sep.join(vs)`, part by part from the front: a part that is not a str
      raises TypeError. */
  function JoinValues(sep: string, vs: seq<Value>): (r: Result<string>)
    ensures r.Ok? <==> forall i :: 0 <= i < |vs| ==> vs[i].Str?
    ensures r.Ok? ==> r.value == Join(sep, Texts(vs))
    decreases |vs|
  {
    if vs == [] then Ok("")
    else if !vs[0].Str? then Err(TypeError)
    else
      var rest :- JoinValues(sep, vs[1..]);
      assert Texts(vs) == [vs[0].s] + Texts(vs[1..]);
      if |vs| == 1 then Ok(vs[0].s)
      else
        JoinCons(sep, vs[0].s, Texts(vs[1..]));
        Ok(vs[0].s + sep + rest)
  }

  /** `', '.join([e['adresa'] for e in v])`. */
  function EmailText(v: Value): Result<string> {
    var es :- IterateMappings(v);
    var addresses :- AddressesOf(es);
    JoinValues(", ", addresses)
  }

  /** The fields `inject_details` assigns, one statement each, in statement order. */
  const InjectedKeys: seq<Key> := [
    Oib, DjelatnostSifra, DjelatnostNaziv, Zupanija, Adresa, Naselje,
    EmailAdrese, GfiCount, Status, NaznakaImena, PravniOblik]

  /** `details.get(outer, {}).get(inner, default)` on the details dict `d`.
      Each `get` is a method call that raises AttributeError unless its
      receiver is a dict, so a nested object that is present but not a dict
      raises while a missing one falls back to `{}`. */
  function NestedGet(d: map<string, Value>, outer: string, inner: string, default: Value): Result<Value> {
    GetMethod(Get(d, outer, Dict(map[])), inner, default)
  }

  /** The address statement: `ulica + ' ' + str(kucni_broj)`, where `+` on a
      street that is not a str raises TypeError. */
  function AddressStatement(d: map<string, Value>): Result<Value> {
    var street :- NestedGet(d, "sjediste", "ulica", Str(""));
    if !street.Str? then Err(TypeError)
    else
      var number :- NestedGet(d, "sjediste", "kucni_broj", Str(""));
      Ok(Str(street.s + " " + StrOf(number)))
  }

  /** The e-mail statement: the addresses joined with `', '`. */
  function EmailStatement(d: map<string, Value>): Result<Value> {
    var text :- EmailText(Get(d, "email_adrese", List([])));
    Ok(Str(text))
  }

  /** The annual-report statement: `len(details.get('gfi', []))`. */
  function GfiStatement(d: map<string, Value>): Result<Value> {
    var n :- Len(Get(d, "gfi", List([])));
    Ok(Int(n))
  }

  /** The legal-form statement: a missing `vrsta_pravnog_oblika` gives None,
      whose `get` raises AttributeError. */
  function LegalFormStatement(d: map<string, Value>): Result<Value> {
    var kind :- NestedGet(d, "pravni_oblik", "vrsta_pravnog_oblika", Null);
    GetMethod(kind, "kratica", Str(""))
  }

  /** The value of the `i`-th assignment statement of `inject_details`, in the
      order of `InjectedKeys`, evaluated from the details dict `d`. */
  function StatementAt(d: map<string, Value>, i: nat): Result<Value>
    requires i < |InjectedKeys|
  {
    if i == 0 then Ok(Get(d, "oib", Null))
    else if i == 1 then NestedGet(d, "pretezita_djelatnost", "sifra", Str(""))
    else if i == 2 then NestedGet(d, "pretezita_djelatnost", "puni_naziv", Str(""))
    else if i == 3 then NestedGet(d, "sjediste", "naziv_zupanije", Str(""))
    else if i == 4 then AddressStatement(d)
    else if i == 5 then NestedGet(d, "sjediste", "naziv_naselja", Str(""))
    else if i == 6 then EmailStatement(d)
    else if i == 7 then GfiStatement(d)
    else if i == 8 then Ok(Get(d, "status", Int(0)))
    else if i == 9 then NestedGet(d, "tvrtka", "naznaka_imena", Str(""))
    else LegalFormStatement(d)
  }

  /** The values of the eleven assignment statements of `inject_details`, in
      statement order. */
  function Statements(d: map<string, Value>): (vs: seq<Result<Value>>)
    ensures |vs| == |InjectedKeys|
  {
    seq(|InjectedKeys|, i requires 0 <= i < |InjectedKeys| => StatementAt(d, i))
  }

  /** How many statements, counted from the `from`-th, run before one raises. */
  function StatementsRun(vs: seq<Result<Value>>, from: nat): (n: nat)
    requires from <= |vs|
    ensures from <= n <= |vs|
    ensures forall i :: from <= i < n ==> vs[i].Ok?
    ensures n < |vs| ==> vs[n].Err?
    decreases |vs| - from
  {
    if from == |vs| then from
    else if vs[from].Err? then from
    else StatementsRun(vs, from + 1)
  }

  /** The number of statements that run is the position of the first one that
      raises. */
  lemma StatementsRunAt(vs: seq<Result<Value>>, n: nat)
    requires n <= |vs|
    requires forall i :: 0 <= i < n ==> vs[i].Ok?
    requires n < |vs| ==> vs[n].Err?
    ensures StatementsRun(vs, 0) == n
  {
  }

  /** What the field assigned by the `i`-th statement holds once the first `n`
      statements have run: that statement's value if it ran, `prior` if not. */
  function After(prior: Value, vs: seq<Result<Value>>, n: nat, i: nat): Value
    requires n <= |vs| && i < |vs| && forall j :: 0 <= j < n ==> vs[j].Ok?
  {
    if i < n then vs[i].value else prior
  }

  /** The record once the first `n` statements, whose values are `vs`, have
      run. */
  function Assigned(c: Company, vs: seq<Result<Value>>, n: nat): Company
    requires |vs| == |InjectedKeys| && n <= |vs| && forall j :: 0 <= j < n ==> vs[j].Ok?
  {
    c.(oib := After(c.oib, vs, n, 0),
       djelatnostSifra := After(c.djelatnostSifra, vs, n, 1),
       djelatnostNaziv := After(c.djelatnostNaziv, vs, n, 2),
       zupanija := After(c.zupanija, vs, n, 3),
       adresa := After(c.adresa, vs, n, 4),
       naselje := After(c.naselje, vs, n, 5),
       emailAdrese := After(c.emailAdrese, vs, n, 6),
       gfiCount := After(c.gfiCount, vs, n, 7),
       status := After(c.status, vs, n, 8),
       naznakaImena := After(c.naznakaImena, vs, n, 9),
       pravniOblik := After(c.pravniOblik, vs, n, 10))
  }

  /** The state `inject_details` leaves behind: the record with every assignment
      that ran, and the exception that stopped it, if any. */
  datatype Injection = Injection(company: Company, error: Option<Exc>)

  /** `c.inject_details(details)`. Only a dict has `get`. The statements run
      in source order and the first that raises stops the method, so the
      assignments before it stay in place and the later ones never happen. */
  function InjectDetails(c: Company, details: Value): (r: Injection)
    ensures r.company.mbs == c.mbs && r.company.ime == c.ime
    ensures r.company.telefonskiBrojevi == c.telefonskiBrojevi && r.company.ostalo == c.ostalo
    ensures !details.Dict? ==> r == Injection(c, Some(AttributeError))
  {
    if !details.Dict? then Injection(c, Some(AttributeError))
    else
      var vs := Statements(details.entries);
      var n := StatementsRun(vs, 0);
      Injection(Assigned(c, vs, n), if n < |vs| then Some(vs[n].exc) else None)
  }

  /** The position of an assigned field in statement order. */
  function StatementIndex(k: Key): (i: nat)
    requires k in InjectedKeys
    ensures i < |InjectedKeys| && InjectedKeys[i] == k
  {
    match k
    case Oib => 0
    case DjelatnostSifra => 1
    case DjelatnostNaziv => 2
    case Zupanija => 3
    case Adresa => 4
    case Naselje => 5
    case EmailAdrese => 6
    case GfiCount => 7
    case Status => 8
    case NaznakaImena => 9
    case PravniOblik => 10
  }

  /** The fields `inject_details` leaves alone. */
  lemma NotInjected(k: Key)
    ensures k !in InjectedKeys <==> k in {Mbs, Ime, TelefonskiBrojevi, Ostalo}
  {
    if k in InjectedKeys {
      assert InjectedKeys[StatementIndex(k)] == k;
    }
  }

  /** `inject_details` on a dict: every field whose statement ran holds that
      statement's value, every other field keeps its old value, and the call
      raises exactly when a statement raised, with the first such statement's
      exception. */
  lemma InjectFollowsStatements(c: Company, d: map<string, Value>, k: Key)
    ensures var r := InjectDetails(c, Dict(d)); var vs := Statements(d); var n := StatementsRun(vs, 0);
      && Field(r.company, k) ==
           (if k in InjectedKeys && StatementIndex(k) < n then vs[StatementIndex(k)].value else Field(c, k))
      && (r.error == None <==> n == |InjectedKeys|)
      && (n < |InjectedKeys| ==> r.error == Some(vs[n].exc))
  {
    NotInjected(k);
  }

  /** The result does not depend on what the record held before: two records
      given the same details end up equal on every field the method assigns. */
  lemma InjectOverwrites(a: Company, b: Company, details: Value)
    requires InjectDetails(a, details).error == None
    ensures InjectDetails(b, details).error == None
    ensures InjectDetails(a, details).company ==
      InjectDetails(b, details).company.(mbs := a.mbs, ime := a.ime,
                                         telefonskiBrojevi := a.telefonskiBrojevi, ostalo := a.ostalo)
  {
  }

  /** The statement values when the details have no `pretezita_djelatnost`,
      `sjediste`, `tvrtka`, `email_adrese`, `gfi` or `pravni_oblik`: the
      nested reads fall back to their defaults. */
  lemma MissingPathsValues(d: map<string, Value>)
    requires "pretezita_djelatnost" !in d && "sjediste" !in d && "tvrtka" !in d
    requires "email_adrese" !in d && "gfi" !in d && "pravni_oblik" !in d
    ensures StatementAt(d, 0) == Ok(Get(d, "oib", Null))
    ensures StatementAt(d, 1) == Ok(Str("")) && StatementAt(d, 2) == Ok(Str(""))
    ensures StatementAt(d, 3) == Ok(Str("")) && StatementAt(d, 4) == Ok(Str(" "))
    ensures StatementAt(d, 5) == Ok(Str("")) && StatementAt(d, 6) == Ok(Str(""))
    ensures StatementAt(d, 7) == Ok(Int(0)) && StatementAt(d, 8) == Ok(Get(d, "status", Int(0)))
    ensures StatementAt(d, 9) == Ok(Str("")) && StatementAt(d, 10) == Err(AttributeError)
  {
    assert StatementAt(d, 4) == Ok(Str(" ")) by {
      assert StrOf(Str("")) == "";
      assert "" + " " + "" == " ";
    }
    assert StatementAt(d, 6) == Ok(Str(""));
    assert StatementAt(d, 7) == Ok(Int(0));
    assert StatementAt(d, 10) == Err(AttributeError);
  }

  /** With those paths missing every statement but the last succeeds. */
  lemma MissingPathsRun(d: map<string, Value>)
    requires "pretezita_djelatnost" !in d && "sjediste" !in d && "tvrtka" !in d
    requires "email_adrese" !in d && "gfi" !in d && "pravni_oblik" !in d
    ensures StatementsRun(Statements(d), 0) == 10
  {
    MissingPathsValues(d);
    StatementsRunAt(Statements(d), 10);
  }

  /** A details document without `pretezita_djelatnost`, `sjediste` and
      `tvrtka` yields empty strings for the fields read from them (and `' '`
      for the address) instead of raising; with no e-mail list and no report
      list either, the call then fails only at the legal form, which is
      missing too, after every other statement has run. */
  lemma MissingPathsYieldEmpty(c: Company, d: map<string, Value>)
    requires "pretezita_djelatnost" !in d && "sjediste" !in d && "tvrtka" !in d
    requires "email_adrese" !in d && "gfi" !in d && "pravni_oblik" !in d
    ensures var r := InjectDetails(c, Dict(d)).company;
      && r.djelatnostSifra == Str("") && r.djelatnostNaziv == Str("")
      && r.zupanija == Str("") && r.naselje == Str("") && r.naznakaImena == Str("")
      && r.adresa == Str(" ") && r.emailAdrese == Str("") && r.gfiCount == Int(0)
      && r.oib == Get(d, "oib", Null) && r.status == Get(d, "status", Int(0))
      && r.pravniOblik == c.pravniOblik
    ensures InjectDetails(c, Dict(d)).error == Some(AttributeError)
  {
    MissingPathsValues(d);
    MissingPathsRun(d);
  }

  /** `details[outer][inner]` is absent: there is no `outer` object, or it is
      a dict without `inner`. */
  predicate PathMissing(d: map<string, Value>, outer: string, inner: string) {
    outer !in d || (d[outer].Dict? && inner !in d[outer].entries)
  }

  /** `details[outer][inner]` is present and holds `v`. */
  predicate PathHolds(d: map<string, Value>, outer: string, inner: string, v: Value) {
    outer in d && d[outer].Dict? && inner in d[outer].entries && d[outer].entries[inner] == v
  }

  /** A nested read gives the default for an absent path, whichever part of it
      is absent, the stored value for a present one, and raises only when the
      outer object is present but not a dict. */
  lemma NestedGetCases(d: map<string, Value>, outer: string, inner: string, default: Value, v: Value)
    ensures PathMissing(d, outer, inner) ==> NestedGet(d, outer, inner, default) == Ok(default)
    ensures PathHolds(d, outer, inner, v) ==> NestedGet(d, outer, inner, default) == Ok(v)
    ensures NestedGet(d, outer, inner, default).Err? <==> outer in d && !d[outer].Dict?
  {
  }

  /** The address statement on the shapes of `sjediste` it meets: a street and
      a house number give `street + ' ' + str(number)`; a missing number gives
      the street and a space; with neither, a lone space; a street that is not
      a str raises TypeError. */
  lemma AddressCases(d: map<string, Value>, street: string, number: int)
    ensures PathHolds(d, "sjediste", "ulica", Str(street)) && PathHolds(d, "sjediste", "kucni_broj", Int(number)) ==>
      AddressStatement(d) == Ok(Str(street + " " + IntToDecimal(number)))
    ensures PathHolds(d, "sjediste", "ulica", Str(street)) && PathMissing(d, "sjediste", "kucni_broj") ==>
      AddressStatement(d) == Ok(Str(street + " "))
    ensures PathMissing(d, "sjediste", "ulica") && PathMissing(d, "sjediste", "kucni_broj") ==>
      AddressStatement(d) == Ok(Str(" "))
    ensures ("sjediste" in d && d["sjediste"].Dict? && "ulica" in d["sjediste"].entries
             && !d["sjediste"].entries["ulica"].Str?) ==> AddressStatement(d) == Err(TypeError)
  {
    assert StrOf(Str("")) == "";
    assert street + " " + "" == street + " ";
    assert "" + " " + "" == " ";
  }

  /** The house number of an address reads back from the text after the
      street and its space. */
  lemma AddressNumberReadsBack(street: string, number: nat)
    ensures var text := street + " " + IntToDecimal(number);
      && (forall i :: |street| + 1 <= i < |text| ==> '0' <= text[i] <= '9')
      && DecimalValue(text[|street| + 1..]) == number
  {
    var text := street + " " + IntToDecimal(number);
    assert text[|street| + 1..] == NatToDecimal(number);
    DecimalRoundTrip(number);
  }

  /** On a successful call, each field read from a nested object holds the
      value stored at its path, and `''` when the path is absent, whatever
      the rest of the details hold; an absent `sjediste` leaves a lone space
      as the address. */
  lemma InjectedNestedFields(c: Company, d: map<string, Value>)
    requires InjectDetails(c, Dict(d)).error == None
    ensures var r := InjectDetails(c, Dict(d)).company;
      && (PathMissing(d, "pretezita_djelatnost", "sifra") ==> r.djelatnostSifra == Str(""))
      && (PathMissing(d, "pretezita_djelatnost", "puni_naziv") ==> r.djelatnostNaziv == Str(""))
      && (PathMissing(d, "sjediste", "naziv_zupanije") ==> r.zupanija == Str(""))
      && (PathMissing(d, "sjediste", "naziv_naselja") ==> r.naselje == Str(""))
      && (PathMissing(d, "tvrtka", "naznaka_imena") ==> r.naznakaImena == Str(""))
      && ("sjediste" !in d ==> r.adresa == Str(" "))
    ensures forall v :: PathHolds(d, "pretezita_djelatnost", "sifra", v) ==>
      InjectDetails(c, Dict(d)).company.djelatnostSifra == v
    ensures forall v :: PathHolds(d, "pretezita_djelatnost", "puni_naziv", v) ==>
      InjectDetails(c, Dict(d)).company.djelatnostNaziv == v
    ensures forall v :: PathHolds(d, "sjediste", "naziv_zupanije", v) ==>
      InjectDetails(c, Dict(d)).company.zupanija == v
    ensures forall v :: PathHolds(d, "sjediste", "naziv_naselja", v) ==>
      InjectDetails(c, Dict(d)).company.naselje == v
    ensures forall v :: PathHolds(d, "tvrtka", "naznaka_imena", v) ==>
      InjectDetails(c, Dict(d)).company.naznakaImena == v
  {
    assert StatementsRun(Statements(d), 0) == |InjectedKeys|;
  }

  /** `', '.join` over an e-mail list of well-formed entries joins their addresses. */
  lemma EmailTextOfList(es: seq<Value>)
    requires EmailText(List(es)).Ok?
    ensures EmailText(List(es)).value == Join(", ", AddressStrings(es))
  {
    var addresses := AddressesOf(es).value;
    assert Texts(addresses) == AddressStrings(es);
  }

  /** The e-mail list of a successful call becomes its addresses joined with
      `', '`, or the empty string when the details have none. */
  lemma InjectedEmails(c: Company, d: map<string, Value>)
    requires InjectDetails(c, Dict(d)).error == None
    ensures "email_adrese" !in d ==> InjectDetails(c, Dict(d)).company.emailAdrese == Str("")
    ensures forall es: seq<Value> :: Get(d, "email_adrese", List([])) == List(es) ==>
      InjectDetails(c, Dict(d)).company.emailAdrese == Str(Join(", ", AddressStrings(es)))
  {
    assert Statements(d)[6].Ok?;
    var es := Get(d, "email_adrese", List([]));
    if es.List? {
      EmailTextOfList(es.items);
    }
  }

  /** On a successful call the report list becomes its length, 0 when the
      details have none, and the status is copied, 0 when absent. */
  lemma InjectedCounts(c: Company, d: map<string, Value>)
    requires InjectDetails(c, Dict(d)).error == None
    ensures "gfi" !in d ==> InjectDetails(c, Dict(d)).company.gfiCount == Int(0)
    ensures forall xs: seq<Value> :: Get(d, "gfi", List([])) == List(xs) ==>
      InjectDetails(c, Dict(d)).company.gfiCount == Int(|xs|)
    ensures InjectDetails(c, Dict(d)).company.status == (if "status" in d then d["status"] else Int(0))
  {
    assert Statements(d)[7].Ok?;
  }

  /** Without `pravni_oblik.vrsta_pravnog_oblika` the call always raises and
      never sets `pravniOblik`; when every earlier statement ran, the
      exception is AttributeError. */
  lemma MissingLegalFormRaises(c: Company, d: map<string, Value>)
    requires "pravni_oblik" !in d || (d["pravni_oblik"].Dict? && "vrsta_pravnog_oblika" !in d["pravni_oblik"].entries)
    ensures InjectDetails(c, Dict(d)).error.Some?
    ensures InjectDetails(c, Dict(d)).company.pravniOblik == c.pravniOblik
    ensures StatementsRun(Statements(d), 0) == |InjectedKeys| - 1 ==>
      InjectDetails(c, Dict(d)).error == Some(AttributeError)
  {
    assert Statements(d)[10] == Err(AttributeError);
  }
}

=== FILE: db.dfy ===
/** The company store of `db/db.py`: companies keyed by their `mbs` in
    insertion order, the job-status object of the bulk fetch, the dirty flag,
    and the document the store saves to and loads from its file. */
module Database {
  import opened PyValues
  import opened Text
  import opened DataModels

  /** What the store's file holds: nothing, text that is not JSON, or a JSON
      document. */
  datatype StoredFile = Missing | Garbled | Json(doc: Value)

  /** The store. A Python dict iterates in insertion order, so the keys are
      kept as a sequence beside the map. */
  datatype Db = Db(
    keys: seq<Value>,
    companies: map<Value, Company>,
    jobStatus: Value,
    isDirty: bool,
    file: StoredFile)

  /** No element occurs twice. */
  predicate Distinct(s: seq<Value>) {
    forall i, j :: 0 <= i < j < |s| ==> s[i] != s[j]
  }

  /** The store's invariant: the key order lists each key once, the map holds
      exactly those keys, and every key is hashable and equals the `mbs` of
      the company stored under it. */
  ghost predicate Valid(db: Db) {
    && Distinct(db.keys)
    && (forall k :: k in db.companies <==> k in db.keys)
    && (forall k :: k in db.companies ==> Hashable(k) && db.companies[k].mbs == k)
  }

  /** A store with no companies and an empty job status, over `file`. */
  function Empty(file: StoredFile): (db: Db)
    ensures Valid(db) && !db.isDirty
  {
    Db([], map[], Dict(map[]), false, file)
  }

  /** `get_all_companies()`: the companies in insertion order. */
  function GetAllCompanies(db: Db): (cs: seq<Company>)
    requires Valid(db)
    ensures |cs| == |db.keys|
    ensures forall i :: 0 <= i < |cs| ==> cs[i] == db.companies[db.keys[i]] && cs[i].mbs == db.keys[i]
  {
    seq(|db.keys|, i requires 0 <= i < |db.keys| => db.companies[db.keys[i]])
  }

  /** A sequence without repetitions has as many distinct elements as it is long. */
  lemma {:induction false} DistinctSetSize(s: seq<Value>)
    requires Distinct(s)
    ensures |(set k | k in s)| == |s|
  {
    if s != [] {
      var t := s[..|s| - 1];
      assert Distinct(t);
      DistinctSetSize(t);
      assert (set k | k in s) == (set k | k in t) + {s[|s| - 1]};
      assert s[|s| - 1] !in (set k | k in t);
    }
  }

  /** `count()`: the number of stored companies. */
  function Count(db: Db): (n: nat)
    requires Valid(db)
    ensures n == |GetAllCompanies(db)|
  {
    assert db.companies.Keys == set k | k in db.keys;
    DistinctSetSize(db.keys);
    |db.companies|
  }

  /** `get_company_my_mbs(mbs)`: `dict.get` hashes its argument, so an
      unhashable one raises TypeError; a missing key gives None. */
  function GetCompanyByMbs(db: Db, mbs: Value): (r: Result<Option<Company>>)
    requires Valid(db)
    ensures r.Err? <==> !Hashable(mbs)
    ensures r.Ok? && r.value.Some? ==> r.value.value in GetAllCompanies(db) && r.value.value.mbs == mbs
    ensures r == Ok(None) <==> Hashable(mbs) && forall c: Company :: c in GetAllCompanies(db) ==> c.mbs != mbs
  {
    if !Hashable(mbs) then Err(TypeError)
    else if mbs in db.companies then Ok(Some(db.companies[mbs]))
    else Ok(None)
  }

  /** `add_company(c)`. `company.mbs in self.companies` hashes the key, so an
      unhashable `mbs` raises TypeError. For a key already present the method
      calls `update_with_values`, which `Company` does not define: that raises
      AttributeError before anything is stored and before the dirty flag is
      set. Otherwise the company is appended under its `mbs`. */
  function AddCompany(db: Db, c: Company): (r: Result<Db>)
    requires Valid(db)
    ensures r == Err(TypeError) <==> !Hashable(c.mbs)
    ensures r == Err(AttributeError) <==> Hashable(c.mbs) && GetCompanyByMbs(db, c.mbs).value.Some?
    ensures r.Ok? ==> && Valid(r.value)
                      && GetAllCompanies(r.value) == GetAllCompanies(db) + [c]
                      && Count(r.value) == Count(db) + 1
                      && r.value.isDirty
                      && r.value.jobStatus == db.jobStatus && r.value.file == db.file
  {
    if !Hashable(c.mbs) then Err(TypeError)
    else if c.mbs in db.companies then Err(AttributeError)
    else
      var r := db.(keys := db.keys + [c.mbs], companies := db.companies[c.mbs := c], isDirty := true);
      assert Valid(r);
      assert GetAllCompanies(r) == GetAllCompanies(db) + [c];
      Ok(r)
  }

  /** An added company is found under its `mbs`, and every other lookup gives
      what it gave before. */
  lemma AddThenGet(db: Db, c: Company, mbs: Value)
    requires Valid(db) && AddCompany(db, c).Ok?
    ensures GetCompanyByMbs(AddCompany(db, c).value, c.mbs) == Ok(Some(c))
    ensures mbs != c.mbs ==> GetCompanyByMbs(AddCompany(db, c).value, mbs) == GetCompanyByMbs(db, mbs)
  {
  }

  /** The position of the first company whose `oib` equals `oib`. */
  function FirstWithOib(cs: seq<Company>, oib: Value): (r: Option<nat>)
    ensures r.None? <==> forall i :: 0 <= i < |cs| ==> cs[i].oib != oib
    ensures r.Some? ==> r.value < |cs| && cs[r.value].oib == oib
                        && forall i :: 0 <= i < r.value ==> cs[i].oib != oib
  {
    if cs == [] then None
    else if cs[0].oib == oib then Some(0)
    else
      match FirstWithOib(cs[1..], oib)
      case None => None
      case Some(i) => Some(i + 1)
  }

  /** `get_company_by_oib(oib)`: the first company in store order with that
      `oib`, or None. */
  function GetCompanyByOib(db: Db, oib: Value): (r: Option<Company>)
    requires Valid(db)
    ensures r.None? <==> forall c: Company :: c in GetAllCompanies(db) ==> c.oib != oib
    ensures r.Some? ==> exists i :: 0 <= i < |GetAllCompanies(db)| && GetAllCompanies(db)[i] == r.value
                           && r.value.oib == oib
                           && forall j :: 0 <= j < i ==> GetAllCompanies(db)[j].oib != oib
  {
    var cs := GetAllCompanies(db);
    match FirstWithOib(cs, oib)
    case None => None
    case Some(i) => Some(cs[i])
  }

  /** Whether a company's lower-cased name contains `needle`; only a str name
      has `lower`. */
  function NameMatches(c: Company, needle: string): Result<bool> {
    if c.ime.Str? then Ok(Contains(Lower(c.ime.s), needle)) else Err(AttributeError)
  }

  /** `[c for c in cs if c.ime.lower().find(needle) > -1]`: the first company
      whose name is not a str raises AttributeError. */
  function SelectByName(cs: seq<Company>, needle: string): (r: Result<seq<Company>>)
    ensures r.Ok? <==> forall i :: 0 <= i < |cs| ==> cs[i].ime.Str?
    ensures r.Err? ==> r == Err(AttributeError)
    ensures r.Ok? ==> forall c: Company :: c in r.value <==> c in cs && Occurs(Lower(c.ime.s), needle)
  {
    if cs == [] then Ok([])
    else
      var keep :- NameMatches(cs[0], needle);
      var rest :- SelectByName(cs[1..], needle);
      assert forall c :: c in cs <==> c == cs[0] || c in cs[1..];
      ContainsIffOccurs(Lower(cs[0].ime.s), needle);
      Ok(if keep then [cs[0]] + rest else rest)
  }

  /** Selecting from two runs of companies one after the other selects from
      each in turn: the selection keeps the store's order. */
  lemma {:induction false} SelectByNameAppend(cs: seq<Company>, ds: seq<Company>, needle: string)
    requires SelectByName(cs + ds, needle).Ok?
    ensures SelectByName(cs, needle).Ok? && SelectByName(ds, needle).Ok?
    ensures SelectByName(cs + ds, needle).value == SelectByName(cs, needle).value + SelectByName(ds, needle).value
    decreases |cs|
  {
    if cs == [] {
      assert cs + ds == ds;
    } else {
      assert (cs + ds)[1..] == cs[1..] + ds;
      assert (cs + ds)[0] == cs[0];
      SelectByNameAppend(cs[1..], ds, needle);
    }
  }

  /** One company is selected exactly when its name matches. */
  lemma SelectByNameSingle(c: Company, needle: string)
    requires c.ime.Str?
    ensures SelectByName([c], needle) == Ok(if Occurs(Lower(c.ime.s), needle) then [c] else [])
  {
    ContainsIffOccurs(Lower(c.ime.s), needle);
    assert [c][1..] == [];
    assert SelectByName([], needle) == Ok([]);
    assert [c] + [] == [c];
  }

  /** `get_company_list_by_name(name)`: an empty name gives `[]`; otherwise
      the companies, in store order, whose lower-cased name contains the
      lower-cased `name`. Nothing in the store changes. */
  function GetCompanyListByName(db: Db, name: string): (r: Result<seq<Company>>)
    requires Valid(db)
    ensures name == "" ==> r == Ok([])
    ensures name != "" ==> (r.Ok? <==> forall c: Company :: c in GetAllCompanies(db) ==> c.ime.Str?)
    ensures name != "" && r.Ok? ==>
      forall c: Company :: c in r.value <==> c in GetAllCompanies(db) && Occurs(Lower(c.ime.s), Lower(name))
  {
    if name == "" then Ok([]) else SelectByName(GetAllCompanies(db), Lower(name))
  }

  /** Adding a company with a str name appends it to every name search it
      matches and leaves the other searches as they were: the search keeps
      the order in which companies were added. */
  lemma ListByNameAfterAdd(db: Db, c: Company, name: string)
    requires Valid(db) && AddCompany(db, c).Ok? && c.ime.Str?
    requires GetCompanyListByName(db, name).Ok?
    ensures GetCompanyListByName(AddCompany(db, c).value, name)
         == Ok(GetCompanyListByName(db, name).value
               + (if name != "" && Occurs(Lower(c.ime.s), Lower(name)) then [c] else []))
  {
    var cs := GetAllCompanies(db);
    var after := AddCompany(db, c).value;
    assert GetAllCompanies(after) == cs + [c];
    if name != "" {
      forall i | 0 <= i < |cs + [c]|
        ensures (cs + [c])[i].ime.Str?
      {
        if i < |cs| {
          assert (cs + [c])[i] == cs[i] && cs[i] in cs;
        }
      }
      SelectByNameAppend(cs, [c], Lower(name));
      SelectByNameSingle(c, Lower(name));
    } else {
      assert GetCompanyListByName(after, name) == Ok([]);
      assert GetCompanyListByName(db, name).value + [] == [];
    }
  }

  /** `clear(companies, fetch_job_status)`: empties the chosen collections and
      marks the store dirty even when neither is chosen. */
  function Clear(db: Db, companies: bool, fetchJobStatus: bool): (r: Db)
    requires Valid(db)
    ensures Valid(r) && r.isDirty && r.file == db.file
    ensures GetAllCompanies(r) == if companies then [] else GetAllCompanies(db)
    ensures r.jobStatus == if fetchJobStatus then Dict(map[]) else db.jobStatus
  {
    var r := db.(isDirty := true);
    var r := if companies then r.(keys := [], companies := map[]) else r;
    if fetchJobStatus then r.(jobStatus := Dict(map[])) else r
  }

  /** `set_fetch_job_status(status)`: replaces the job status and marks the
      store dirty. */
  function SetFetchJobStatus(db: Db, status: Value): (r: Db)
    requires Valid(db)
    ensures Valid(r) && r.isDirty
    ensures GetAllCompanies(r) == GetAllCompanies(db) && r.file == db.file
  {
    db.(jobStatus := status, isDirty := true)
  }

  /** `get_fetch_job_status()`. */
  function GetFetchJobStatus(db: Db): Value {
    db.jobStatus
  }

  /** The job status read back is the one last set. */
  lemma SetThenGetStatus(db: Db, status: Value)
    requires Valid(db)
    ensures GetFetchJobStatus(SetFetchJobStatus(db, status)) == status
  {
  }

  /** The dict form of each company, in order. */
  function Records(cs: seq<Company>): (rs: seq<Value>)
    ensures |rs| == |cs|
    ensures forall i :: 0 <= i < |cs| ==> rs[i] == Dict(DataModels.ToDict(cs[i]))
  {
    seq(|cs|, i requires 0 <= i < |cs| => Dict(DataModels.ToDict(cs[i])))
  }

  /** `to_dict()`: the document the store saves. */
  function ToDict(db: Db): (doc: Value)
    requires Valid(db)
    ensures doc.Dict? && doc.entries.Keys == {"companies", "fetch_job_status"}
    ensures doc.entries["companies"] == List(Records(GetAllCompanies(db)))
    ensures doc.entries["fetch_job_status"] == db.jobStatus
  {
    Dict(map["companies" := List(Records(GetAllCompanies(db))), "fetch_job_status" := db.jobStatus])
  }

  /** The keys and companies `{c['mbs']: Company(**c) for c in records}`
      produces. */
  datatype Store = Store(keys: seq<Value>, companies: map<Value, Company>)

  /** One record of the dict comprehension of `from_dict`, evaluated left to
      right: the key `c['mbs']` first, then `Company(**c)`, then the
      insertion, which hashes the key. The key is the new company's `mbs`. */
  function Entry(record: Value): (r: Result<Company>)
    ensures r.Ok? ==> && record.Dict? && "mbs" in record.entries
                      && Create(record.entries) == r
                      && r.value.mbs == record.entries["mbs"] && Hashable(r.value.mbs)
  {
    var key :- Subscript(record, "mbs");
    var c :- Create(record.entries);
    assert Field(c, Mbs) == record.entries[KeyText(Mbs)];
    if !Hashable(key) then Err(TypeError) else Ok(c)
  }

  /** The record `to_dict` writes for a company with a hashable `mbs` reads
      back as that company. */
  lemma EntryOfRecord(c: Company)
    requires Hashable(c.mbs)
    ensures Entry(Dict(DataModels.ToDict(c))) == Ok(c)
  {
    CreateFromDict(c);
  }

  /** `{c['mbs']: Company(**c) for c in records}`. A repeated key keeps its
      first position and takes the later company. */
  function BuildStore(records: seq<Value>): (r: Result<Store>)
    decreases |records|
  {
    if records == [] then Ok(Store([], map[]))
    else
      var store :- BuildStore(records[..|records| - 1]);
      var c :- Entry(records[|records| - 1]);
      if c.mbs in store.companies then Ok(Store(store.keys, store.companies[c.mbs := c]))
      else Ok(Store(store.keys + [c.mbs], store.companies[c.mbs := c]))
  }

  /** The comprehension fails exactly when some record fails, and otherwise
      stores every record's key, each once. */
  lemma {:induction false} BuildStoreOutcome(records: seq<Value>)
    ensures BuildStore(records).Ok? <==> forall i :: 0 <= i < |records| ==> Entry(records[i]).Ok?
    ensures BuildStore(records).Ok? ==> |BuildStore(records).value.keys| <= |records|
    ensures BuildStore(records).Ok? ==>
      forall i :: 0 <= i < |records| ==> Entry(records[i]).value.mbs in BuildStore(records).value.companies
    decreases |records|
  {
    if records != [] {
      var front := records[..|records| - 1];
      assert forall i :: 0 <= i < |front| ==> front[i] == records[i];
      BuildStoreOutcome(front);
    }
  }

  /** The store `from_dict` builds satisfies the store's invariant. */
  lemma {:induction false} BuildStoreValid(records: seq<Value>, jobStatus: Value, file: StoredFile)
    requires BuildStore(records).Ok?
    ensures var s := BuildStore(records).value; Valid(Db(s.keys, s.companies, jobStatus, false, file))
    decreases |records|
  {
    if records != [] {
      BuildStoreValid(records[..|records| - 1], jobStatus, file);
    }
  }

  /** `from_dict(data)`: `data['companies']` must exist and hold dict records,
      each with an `mbs`; the job status is `data.get('fetch_job_status', {})`. */
  function FromDict(db: Db, data: Value): (r: Result<Db>)
    ensures !data.Dict? ==> r == Err(TypeError)
    ensures data.Dict? && "companies" !in data.entries ==> r == Err(KeyError)
    ensures r.Ok? ==> && Valid(r.value)
                      && r.value.jobStatus == Get(data.entries, "fetch_job_status", Dict(map[]))
                      && r.value.isDirty == db.isDirty && r.value.file == db.file
  {
    var records :- Subscript(data, "companies");
    var items :- IterateMappings(records);
    var store :- BuildStore(items);
    var jobStatus := Get(data.entries, "fetch_job_status", Dict(map[]));
    BuildStoreValid(items, jobStatus, db.file);
    Ok(Db(store.keys, store.companies, jobStatus, db.isDirty, db.file))
  }

  /** `save_to_file()`: the file receives the store's document and the dirty
      flag clears. */
  function SaveToFile(db: Db): (r: Db)
    requires Valid(db)
    ensures Valid(r) && !r.isDirty
    ensures r.file == Json(ToDict(db))
    ensures GetAllCompanies(r) == GetAllCompanies(db) && r.jobStatus == db.jobStatus
  {
    db.(file := Json(ToDict(db)), isDirty := false)
  }

  /** `Database(file_path)`, which runs `load_from_file()`: a missing file or
      text that is not JSON gives an empty store; a JSON document goes through
      `from_dict`, whose exceptions are not caught. The loaded store is never
      dirty. */
  function LoadFromFile(file: StoredFile): (r: Result<Db>)
    ensures file.Missing? || file.Garbled? ==> r == Ok(Empty(file))
    ensures r.Ok? ==> Valid(r.value) && !r.value.isDirty && r.value.file == file
  {
    match file
    case Json(doc) => FromDict(Empty(file), doc)
    case _ => Ok(Empty(file))
  }

  /** Appending the record of a company whose key is new appends that
      company to the store built so far. */
  lemma BuildStoreStep(records: seq<Value>, store: Store, c: Company)
    requires records != [] && BuildStore(records[..|records| - 1]) == Ok(store)
    requires Entry(records[|records| - 1]) == Ok(c) && c.mbs !in store.companies
    ensures BuildStore(records) == Ok(Store(store.keys + [c.mbs], store.companies[c.mbs := c]))
  {
  }

  /** The map of a store restricted to the first `n` keys of its order. */
  function PrefixMap(keys: seq<Value>, companies: map<Value, Company>, n: nat): map<Value, Company>
    requires n <= |keys| && forall k :: k in keys ==> k in companies
  {
    map k | k in keys[..n] :: companies[k]
  }

  /** Taking one more key into the prefix adds exactly that key's entry. */
  lemma PrefixMapStep(keys: seq<Value>, companies: map<Value, Company>, n: nat)
    requires 0 < n <= |keys| && forall k :: k in keys ==> k in companies
    ensures PrefixMap(keys, companies, n) ==
      PrefixMap(keys, companies, n - 1)[keys[n - 1] := companies[keys[n - 1]]]
  {
    assert keys[..n] == keys[..n - 1] + [keys[n - 1]];
  }

  /** Records that read back, one by one, as the store's companies in key
      order rebuild, in any prefix, the first `n` entries of the store. */
  lemma {:induction false} BuildStorePrefix(db: Db, rs: seq<Value>, n: nat)
    requires Valid(db) && |rs| == |db.keys| && n <= |rs|
    requires forall i :: 0 <= i < |rs| ==> Entry(rs[i]) == Ok(db.companies[db.keys[i]])
    ensures BuildStore(rs[..n]) == Ok(Store(db.keys[..n], PrefixMap(db.keys, db.companies, n)))
  {
    if n == 0 {
      assert rs[..0] == [];
      assert PrefixMap(db.keys, db.companies, 0) == map[];
    } else {
      BuildStorePrefix(db, rs, n - 1);
      var prior := PrefixMap(db.keys, db.companies, n - 1);
      assert rs[..n][..n - 1] == rs[..n - 1];
      var key := db.keys[n - 1];
      assert rs[..n][n - 1] == rs[n - 1];
      assert key !in prior;
      BuildStoreStep(rs[..n], Store(db.keys[..n - 1], prior), db.companies[key]);
      assert db.keys[..n] == db.keys[..n - 1] + [key];
      PrefixMapStep(db.keys, db.companies, n);
    }
  }

  /** Each saved record reads back as the company it was written from. */
  lemma RecordsReadBack(db: Db)
    requires Valid(db)
    ensures var rs := Records(GetAllCompanies(db));
      && |rs| == |db.keys|
      && forall i :: 0 <= i < |rs| ==> Entry(rs[i]) == Ok(db.companies[db.keys[i]])
  {
    var cs := GetAllCompanies(db);
    forall i | 0 <= i < |cs|
      ensures Entry(Records(cs)[i]) == Ok(db.companies[db.keys[i]])
    {
      EntryOfRecord(cs[i]);
    }
  }

  /** All the saved records rebuild the whole store. */
  lemma BuildStoreAll(db: Db)
    requires Valid(db)
    ensures BuildStore(Records(GetAllCompanies(db))) == Ok(Store(db.keys, db.companies))
  {
    var rs := Records(GetAllCompanies(db));
    assert BuildStore(rs[..|rs|]) == Ok(Store(db.keys[..|rs|], PrefixMap(db.keys, db.companies, |rs|))) by {
      RecordsReadBack(db);
      BuildStorePrefix(db, rs, |rs|);
    }
    assert rs[..|rs|] == rs;
    assert db.keys[..|db.keys|] == db.keys;
    PrefixMapWhole(db);
  }

  /** The prefix of all the keys is the whole map. */
  lemma PrefixMapWhole(db: Db)
    requires Valid(db)
    ensures PrefixMap(db.keys, db.companies, |db.keys|) == db.companies
  {
    assert db.keys[..|db.keys|] == db.keys;
  }

  /** `from_dict(to_dict())` rebuilds the same store: the same companies in
      the same order and the same job status. */
  lemma FromDictToDict(db: Db, other: Db)
    requires Valid(db)
    ensures FromDict(other, ToDict(db)) == Ok(db.(isDirty := other.isDirty, file := other.file))
  {
    var rs := Records(GetAllCompanies(db));
    var doc := ToDict(db);
    assert Subscript(doc, "companies") == Ok(List(rs));
    assert IterateMappings(List(rs)) == Ok(rs);
    BuildStoreAll(db);
  }

  /** Loading the file just saved gives back the saved store. */
  lemma LoadAfterSave(db: Db)
    requires Valid(db)
    ensures LoadFromFile(SaveToFile(db).file) == Ok(SaveToFile(db))
  {
    FromDictToDict(db, Empty(SaveToFile(db).file));
  }

  /** A job status that was set and saved is the one a fresh load reads back:
      the checkpoint a resumed fetch starts from survives the restart. */
  lemma StatusSurvivesReload(db: Db, status: Value)
    requires Valid(db)
    ensures var loaded := LoadFromFile(SaveToFile(SetFetchJobStatus(db, status)).file);
      loaded.Ok? && GetFetchJobStatus(loaded.value) == status
  {
    LoadAfterSave(SetFetchJobStatus(db, status));
  }
}

=== FILE: py_values.dfy ===
/** The slice of Python's dynamic values that the company store handles: what
    `json.load`, keyword bags and the registry's replies can hold, together with
    the few built-in operations the store applies to them and the exceptions
    those operations raise. */
module PyValues {

  /** A JSON-shaped Python value. `Null` is Python's `None`. */
  datatype Value =
    | Null
    | Bool(b: bool)
    | Int(i: int)
    | Str(s: string)
    | List(items: seq<Value>)
    | Dict(entries: map<string, Value>)

  /** The exception kinds the modelled code can raise. `RemoteError` stands for
      whatever the registry client raises (HTTP status, connection failure). */
  datatype Exc = AttributeError | KeyError | TypeError | RemoteError

  datatype Option<+T> = None | Some(value: T)

  /** The outcome of a Python expression: a value, or the exception it raised. */
  datatype Result<+T> = Ok(value: T) | Err(exc: Exc) {
    predicate IsFailure() {
      Err?
    }

    function PropagateFailure<U>(): Result<U>
      requires Err?
    {
      Err(exc)
    }

    function Extract(): T
      requires Ok?
    {
      value
    }
  }

  /** Python truthiness (`if v:`). */
  predicate Truthy(v: Value) {
    match v
    case Null => false
    case Bool(b) => b
    case Int(i) => i != 0
    case Str(s) => s != ""
    case List(xs) => xs != []
    case Dict(m) => |m| != 0
  }

  /** Whether `v` can be a dict key: lists and dicts are unhashable. */
  predicate Hashable(v: Value) {
    !v.List? && !v.Dict?
  }

  /** `d.get(key, default)` on a dict. */
  function Get(d: map<string, Value>, key: string, default: Value): Value {
    if key in d then d[key] else default
  }

  /** `v.get(key, default)`: only dicts have a `get` method. */
  function GetMethod(v: Value, key: string, default: Value): (r: Result<Value>)
    ensures r.Ok? <==> v.Dict?
    ensures !v.Dict? ==> r == Err(AttributeError)
    ensures v.Dict? && key in v.entries ==> r == Ok(v.entries[key])
    ensures v.Dict? && key !in v.entries ==> r == Ok(default)
  {
    if v.Dict? then Ok(Get(v.entries, key, default)) else Err(AttributeError)
  }

  /** `v[key]` with a string key: a missing key is a KeyError, and every other
      type (strings and lists need integer indices) a TypeError. */
  function Subscript(v: Value, key: string): (r: Result<Value>)
    ensures r.Ok? <==> v.Dict? && key in v.entries
    ensures r.Ok? ==> r.value == v.entries[key]
    ensures r == Err(KeyError) <==> v.Dict? && key !in v.entries
  {
    match v
    case Dict(m) => if key in m then Ok(m[key]) else Err(KeyError)
    case _ => Err(TypeError)
  }

  /** `len(v)`. */
  function Len(v: Value): (r: Result<nat>)
    ensures r.Ok? <==> v.Str? || v.List? || v.Dict?
    ensures v.List? ==> r == Ok(|v.items|)
  {
    match v
    case Str(s) => Ok(|s|)
    case List(xs) => Ok(|xs|)
    case Dict(m) => Ok(|m|)
    case _ => Err(TypeError)
  }

  /** `v > 0`: booleans compare as 0 and 1, other non-numbers raise TypeError. */
  function GreaterThanZero(v: Value): (r: Result<bool>)
    ensures r.Ok? <==> v.Int? || v.Bool?
    ensures v.Int? ==> r == Ok(v.i > 0)
  {
    match v
    case Int(i) => Ok(i > 0)
    case Bool(b) => Ok(b)
    case _ => Err(TypeError)
  }

  /** The elements of `v`, for a consumer that subscripts every element with a
      string key (`[e[key] for e in v]`). Lists yield their items. Iterating a
      str yields one-character strs and iterating a dict yields its str keys;
      the consumer's subscript rejects every one of those with TypeError, so a
      non-empty str or dict raises TypeError here and an empty one yields
      nothing. Anything else is not iterable. */
  function IterateMappings(v: Value): (r: Result<seq<Value>>)
    ensures v.List? ==> r == Ok(v.items)
    ensures r.Ok? && !v.List? ==> r.value == []
    ensures r.Ok? <==> v.List? || v == Str("") || v == Dict(map[])
  {
    match v
    case List(xs) => Ok(xs)
    case Str(s) => if s == "" then Ok([]) else Err(TypeError)
    case Dict(m) => if |m| == 0 then Ok([]) else Err(TypeError)
    case _ => Err(TypeError)
  }

  /** The text of one decimal digit. */
  function DigitChar(d: nat): (c: char)
    requires d < 10
    ensures '0' <= c <= '9'
    ensures c as int - '0' as int == d
  {
    ['0', '1', '2', '3', '4', '5', '6', '7', '8', '9'][d]
  }

  /** `str(n)` for a non-negative int. */
  function NatToDecimal(n: nat): (r: string)
    ensures |r| > 0
    ensures forall i :: 0 <= i < |r| ==> '0' <= r[i] <= '9'
    ensures n > 0 ==> r[0] != '0'
    decreases n
  {
    if n < 10 then [DigitChar(n)] else NatToDecimal(n / 10) + [DigitChar(n % 10)]
  }

  /** The number a string of decimal digits denotes. */
  function DecimalValue(s: string): nat
    requires forall i :: 0 <= i < |s| ==> '0' <= s[i] <= '9'
  {
    if s == [] then 0 else 10 * DecimalValue(s[..|s| - 1]) + (s[|s| - 1] as int - '0' as int)
  }

  /** Reading back the text `str(n)` gives `n`. */
  lemma {:induction false} DecimalRoundTrip(n: nat)
    ensures DecimalValue(NatToDecimal(n)) == n
    decreases n
  {
    if n >= 10 {
      var s := NatToDecimal(n);
      DecimalRoundTrip(n / 10);
      assert s[..|s| - 1] == NatToDecimal(n / 10);
    }
  }

  /** `str(i)` for an int. */
  function IntToDecimal(i: int): (r: string)
    ensures i >= 0 ==> r == NatToDecimal(i)
    ensures i < 0 ==> r == "-" + NatToDecimal(-i)
  {
    if i < 0 then "-" + NatToDecimal(-i) else NatToDecimal(i)
  }

  /** Stand-in for Python's `repr` of a list or dict, which this model does not spell out. */
  const ContainerText: string := "<container>"

  /** `str(v)`: exact for None, booleans, ints and strs; lists and dicts give
      `ContainerText`. */
  function StrOf(v: Value): (r: string)
    ensures v.Str? ==> r == v.s
    ensures v.Int? ==> r == IntToDecimal(v.i)
    ensures v == Null ==> r == "None"
  {
    match v
    case Null => "None"
    case Bool(b) => if b then "True" else "False"
    case Int(i) => IntToDecimal(i)
    case Str(s) => s
    case _ => ContainerText
  }
}

=== FILE: sudreg_enrichment.dfy ===
/** `fetch_company_details` of `services/sudreg_service.py`: every stored
    company is asked for its registry details and enriched with them by
    `inject_details`, one company at a time. A failure for one company is
    caught and the loop moves on; each fifth success saves the store. The
    registry is given as a function from `mbs` to its reply, and the
    "Continue?" prompt as a parameter.

    The loop is stated for any per-company attempt `visit` that keeps the
    company's `mbs`, and then used with the `try` body of the source. */
module SudregEnrichment {
  import opened PyValues
  import opened DataModels
  import opened Database
  import opened SudregService
  import opened Text

  /** The `try` body for one company, given the registry's reply to the
      details request for its `mbs`: the request's exception is caught with
      the company untouched; otherwise `inject_details` runs, and what it
      assigned before raising stays. */
  function TryDetails(c: Company, reply: DetailReply): (r: Injection)
    ensures r.company.mbs == c.mbs
    ensures reply.DetailFailed? ==> r == Injection(c, Some(reply.exc))
  {
    match reply
    case DetailFailed(e) => Injection(c, Some(e))
    case Details(doc) => InjectDetails(c, doc)
  }

  /** Whether a per-company attempt leaves every company's `mbs` alone. */
  ghost predicate KeepsMbs(visit: Company -> Injection) {
    forall c: Company :: visit(c).company.mbs == c.mbs
  }

  /** Whether every one of `keys` is stored in `companies`. */
  predicate Covers(keys: seq<Value>, companies: map<Value, Company>) {
    forall j :: 0 <= j < |keys| ==> keys[j] in companies
  }

  /** `companies` once the first `n` of `keys` have been visited. */
  function EnrichedUpTo(keys: seq<Value>, companies: map<Value, Company>, visit: Company -> Injection, n: nat): (m: map<Value, Company>)
    requires Covers(keys, companies) && n <= |keys|
    ensures m.Keys == companies.Keys
    decreases n
  {
    if n == 0 then companies
    else
      var key := keys[n - 1];
      EnrichedUpTo(keys, companies, visit, n - 1)[key := visit(companies[key]).company]
  }

  /** Visiting keeps every company under its own `mbs`. */
  lemma {:induction false} EnrichedUpToKeys(keys: seq<Value>, companies: map<Value, Company>, visit: Company -> Injection, n: nat)
    requires Covers(keys, companies) && n <= |keys| && KeepsMbs(visit)
    requires forall k :: k in companies ==> companies[k].mbs == k
    ensures forall k :: k in EnrichedUpTo(keys, companies, visit, n) ==> EnrichedUpTo(keys, companies, visit, n)[k].mbs == k
    decreases n
  {
    if n > 0 {
      EnrichedUpToKeys(keys, companies, visit, n - 1);
    }
  }

  /** After `n` companies, the `j`-th has been visited exactly when it comes
      before the `n`-th; visiting one key touches no other. */
  lemma {:induction false} EnrichedUpToAt(keys: seq<Value>, companies: map<Value, Company>, visit: Company -> Injection, n: nat, j: nat)
    requires Covers(keys, companies) && Distinct(keys) && n <= |keys| && j < |keys|
    ensures EnrichedUpTo(keys, companies, visit, n)[keys[j]] ==
      if j < n then visit(companies[keys[j]]).company else companies[keys[j]]
    decreases n
  {
    if n > 0 {
      EnrichedUpToAt(keys, companies, visit, n - 1, j);
      if j != n - 1 {
        assert keys[j] != keys[n - 1];
      }
    }
  }

  /** The store once its first `n` companies have been visited. */
  function Snapshot(db: Db, visit: Company -> Injection, n: nat): (s: Db)
    requires Valid(db) && n <= |db.keys| && KeepsMbs(visit)
    ensures Valid(s) && s.keys == db.keys && s.jobStatus == db.jobStatus
  {
    EnrichedUpToKeys(db.keys, db.companies, visit, n);
    db.(companies := EnrichedUpTo(db.keys, db.companies, visit, n))
  }

  /** How many of the first `n` companies the attempt succeeds on. */
  function Successes(keys: seq<Value>, companies: map<Value, Company>, visit: Company -> Injection, n: nat): (count: nat)
    requires Covers(keys, companies) && n <= |keys|
    ensures count <= n
    decreases n
  {
    if n == 0 then 0
    else
      Successes(keys, companies, visit, n - 1) + if visit(companies[keys[n - 1]]).error.None? then 1 else 0
  }

  /** Where the enrichment loop stands: the companies so far, the count of
      successes, for each save how many companies had been visited, and the
      store's dirty flag. Each `save_db()` overwrites the whole file, so the
      file is the store as it stood at the last save, and is written from
      that save point once the loop is done. */
  datatype Progress = Progress(
    companies: map<Value, Company>,
    processed: nat,
    saves: seq<nat>,
    isDirty: bool)

  /** One pass of the `for c in companies` body on the `i`-th stored company:
      the attempt, the count of a success, and at every fifth success
      `save_db()`, which saves the store as it now stands (its first `i + 1`
      companies visited) and leaves it clean. */
  function Visit(db: Db, visit: Company -> Injection, i: nat, p: Progress): (q: Progress)
    requires i < |db.keys| && db.keys[i] in p.companies
  {
    var key := db.keys[i];
    var attempt := visit(p.companies[key]);
    var companies := p.companies[key := attempt.company];
    if attempt.error.Some? then p.(companies := companies)
    else if (p.processed + 1) % 5 != 0 then p.(companies := companies, processed := p.processed + 1)
    else Progress(companies, p.processed + 1, p.saves + [i + 1], false)
  }

  /** The saves after `i` companies with `processed` successes: one for every
      fifth success, each right after the company whose success reached the
      multiple of five. */
  predicate SavedAt(db: Db, visit: Company -> Injection, i: nat, processed: nat, saves: seq<nat>)
    requires i <= |db.keys| && Covers(db.keys, db.companies)
  {
    && |saves| == processed / 5
    && forall j :: 0 <= j < |saves| ==>
         && 0 < saves[j] <= i
         && Successes(db.keys, db.companies, visit, saves[j]) == 5 * (j + 1)
         && visit(db.companies[db.keys[saves[j] - 1]]).error.None?
  }

  /** What holds of the loop after `i` companies: each of them visited, the
      successes among them counted, a save recorded at each fifth, and the
      store dirty only if it was and nothing was saved. */
  ghost predicate Enriching(db: Db, visit: Company -> Injection, i: nat, p: Progress)
    requires Valid(db) && i <= |db.keys| && KeepsMbs(visit)
  {
    && Covers(db.keys, db.companies)
    && p.companies == EnrichedUpTo(db.keys, db.companies, visit, i)
    && p.processed == Successes(db.keys, db.companies, visit, i)
    && SavedAt(db, visit, i, p.processed, p.saves)
    && p.isDirty == (db.isDirty && p.saves == [])
  }

  /** The loop `for c in companies` over the store's own companies, in store
      order, with `visit` as the `try` body. */
  method EnrichAll(db: Db, visit: Company -> Injection) returns (r: Db, processed: nat, saves: seq<nat>)
    requires Valid(db) && KeepsMbs(visit)
    ensures Valid(r) && r.keys == db.keys && r.jobStatus == db.jobStatus
    ensures forall j :: 0 <= j < |db.keys| ==> GetAllCompanies(r)[j] == visit(GetAllCompanies(db)[j]).company
    ensures Covers(db.keys, db.companies) && processed == Successes(db.keys, db.companies, visit, |db.keys|)
    ensures SavedAt(db, visit, |db.keys|, processed, saves)
    ensures r.isDirty == (db.isDirty && saves == [])
    ensures saves == [] ==> r.file == db.file
    ensures saves != [] ==> r.file == Json(Database.ToDict(Snapshot(db, visit, saves[|saves| - 1])))
  {
    assert Covers(db.keys, db.companies);
    var p := Progress(db.companies, 0, [], db.isDirty);
    var i := 0;
    while i < |db.keys|
      invariant i <= |db.keys| && p == Passes(db, visit, i)
    {
      p := Pass(db, visit, i, p);
      i := i + 1;
    }
    r, processed, saves := Finish(db, visit, p);
  }

  /** The loop body on the `i`-th company. */
  method Pass(db: Db, visit: Company -> Injection, i: nat, p: Progress) returns (q: Progress)
    requires Covers(db.keys, db.companies) && i < |db.keys| && p == Passes(db, visit, i)
    ensures q == Passes(db, visit, i + 1)
  {
    q := Visit(db, visit, i, p);
  }

  /** The store when the loop is done: every company visited, the dirty flag
      as the loop left it, and the file as written by the last save. */
  method Finish(db: Db, visit: Company -> Injection, p: Progress) returns (r: Db, processed: nat, saves: seq<nat>)
    requires Valid(db) && KeepsMbs(visit) && Covers(db.keys, db.companies)
    requires p == Passes(db, visit, |db.keys|)
    ensures Valid(r) && r.keys == db.keys && r.jobStatus == db.jobStatus
    ensures forall j :: 0 <= j < |db.keys| ==> GetAllCompanies(r)[j] == visit(GetAllCompanies(db)[j]).company
    ensures Covers(db.keys, db.companies) && processed == Successes(db.keys, db.companies, visit, |db.keys|)
    ensures SavedAt(db, visit, |db.keys|, processed, saves)
    ensures r.isDirty == (db.isDirty && saves == [])
    ensures saves == [] ==> r.file == db.file
    ensures saves != [] ==> r.file == Json(Database.ToDict(Snapshot(db, visit, saves[|saves| - 1])))
  {
    PassesEnrich(db, visit, |db.keys|);
    processed, saves := p.processed, p.saves;
    var file := db.file;
    if saves != [] {
      file := SaveToFile(Snapshot(db, visit, saves[|saves| - 1])).file;
    }
    r := Snapshot(db, visit, |db.keys|).(isDirty := p.isDirty, file := file);
    VisitedAll(db, visit);
  }

  /** Once the loop is done, each stored company is the attempt's company. */
  lemma VisitedAll(db: Db, visit: Company -> Injection)
    requires Valid(db) && KeepsMbs(visit)
    ensures forall j :: 0 <= j < |db.keys| ==>
      GetAllCompanies(Snapshot(db, visit, |db.keys|))[j] == visit(GetAllCompanies(db)[j]).company
  {
    forall j | 0 <= j < |db.keys|
      ensures GetAllCompanies(Snapshot(db, visit, |db.keys|))[j] == visit(GetAllCompanies(db)[j]).company
    {
      EnrichedUpToAt(db.keys, db.companies, visit, |db.keys|, j);
    }
  }

  /** The loop's state after its first `i` passes. */
  function Passes(db: Db, visit: Company -> Injection, i: nat): (p: Progress)
    requires Covers(db.keys, db.companies) && i <= |db.keys|
    ensures p.companies.Keys == db.companies.Keys
  {
    if i == 0 then Progress(db.companies, 0, [], db.isDirty)
    else Visit(db, visit, i - 1, Passes(db, visit, i - 1))
  }

  /** After any number of passes the loop is where `Enriching` says. */
  lemma PassesEnrich(db: Db, visit: Company -> Injection, i: nat)
    requires Valid(db) && KeepsMbs(visit) && i <= |db.keys|
    ensures Enriching(db, visit, i, Passes(db, visit, i))
  {
    assert Covers(db.keys, db.companies);
    PassesVisit(db, visit, i);
    PassesSave(db, visit, i);
  }

  /** After `i` passes, exactly the first `i` companies have been visited. */
  lemma {:induction false} PassesVisit(db: Db, visit: Company -> Injection, i: nat)
    requires Covers(db.keys, db.companies) && Distinct(db.keys) && i <= |db.keys|
    ensures Passes(db, visit, i).companies == EnrichedUpTo(db.keys, db.companies, visit, i)
  {
    if i > 0 {
      var n: nat := i - 1;
      PassesVisit(db, visit, n);
      VisitEnriches(db, visit, n);
    }
  }

  /** A pass visits the next company and leaves the others as they were. */
  lemma VisitEnriches(db: Db, visit: Company -> Injection, n: nat)
    requires Covers(db.keys, db.companies) && Distinct(db.keys) && n < |db.keys|
    requires Passes(db, visit, n).companies == EnrichedUpTo(db.keys, db.companies, visit, n)
    ensures Passes(db, visit, n + 1).companies == EnrichedUpTo(db.keys, db.companies, visit, n + 1)
  {
    EnrichedUpToAt(db.keys, db.companies, visit, n, n);
  }

  /** After `i` passes, the successes are counted, the saves recorded and
      the dirty flag cleared by the first save. */
  lemma {:induction false} PassesSave(db: Db, visit: Company -> Injection, i: nat)
    requires Covers(db.keys, db.companies) && Distinct(db.keys) && i <= |db.keys|
    ensures var p := Passes(db, visit, i);
      && p.processed == Successes(db.keys, db.companies, visit, i)
      && SavedAt(db, visit, i, p.processed, p.saves)
      && p.isDirty == (db.isDirty && p.saves == [])
  {
    if i > 0 {
      var n: nat := i - 1;
      PassesSave(db, visit, n);
      PassesVisit(db, visit, n);
      SaveStep(db, visit, n);
    }
  }

  /** A pass keeps the count, the saves and the dirty flag in step. */
  lemma SaveStep(db: Db, visit: Company -> Injection, n: nat)
    requires Covers(db.keys, db.companies) && Distinct(db.keys) && n < |db.keys|
    requires var p := Passes(db, visit, n);
      && p.companies == EnrichedUpTo(db.keys, db.companies, visit, n)
      && p.processed == Successes(db.keys, db.companies, visit, n)
      && SavedAt(db, visit, n, p.processed, p.saves)
      && p.isDirty == (db.isDirty && p.saves == [])
    ensures var p := Passes(db, visit, n + 1);
      && p.processed == Successes(db.keys, db.companies, visit, n + 1)
      && SavedAt(db, visit, n + 1, p.processed, p.saves)
      && p.isDirty == (db.isDirty && p.saves == [])
  {
    EnrichedUpToAt(db.keys, db.companies, visit, n, n);
    VisitSaves(db, visit, n, Passes(db, visit, n));
  }

  /** The pass saves exactly when its success brings the count to a
      multiple of five. */
  lemma VisitSaves(db: Db, visit: Company -> Injection, i: nat, p: Progress)
    requires i < |db.keys| && Covers(db.keys, db.companies)
    requires p.companies.Keys == db.companies.Keys
    requires p.companies[db.keys[i]] == db.companies[db.keys[i]]
    requires p.processed == Successes(db.keys, db.companies, visit, i)
    requires SavedAt(db, visit, i, p.processed, p.saves)
    requires p.isDirty == (db.isDirty && p.saves == [])
    ensures var q := Visit(db, visit, i, p);
      && q.processed == Successes(db.keys, db.companies, visit, i + 1)
      && SavedAt(db, visit, i + 1, q.processed, q.saves)
      && q.isDirty == (db.isDirty && q.saves == [])
  {
    var attempt := visit(db.companies[db.keys[i]]);
    var q := Visit(db, visit, i, p);
    if attempt.error.Some? {
      assert q.processed == p.processed && q.saves == p.saves && q.isDirty == p.isDirty;
    } else if (p.processed + 1) % 5 != 0 {
      FifthStep(p.processed);
      assert q.processed == p.processed + 1 && q.saves == p.saves && q.isDirty == p.isDirty;
    } else {
      FifthStep(p.processed);
      assert q.processed == p.processed + 1 && q.saves == p.saves + [i + 1];
      SavedAtExtend(db, visit, i, p.processed, p.saves);
    }
  }

  /** Counting one more success crosses a multiple of five exactly when the
      new count is a multiple of five. */
  lemma FifthStep(n: nat)
    ensures (n + 1) % 5 != 0 ==> (n + 1) / 5 == n / 5
    ensures (n + 1) % 5 == 0 ==> (n + 1) / 5 == n / 5 + 1 && n + 1 == 5 * (n / 5 + 1)
  {
  }

  /** A success at the `i`-th company that brings the count to a multiple of
      five records a save after `i + 1` companies. */
  lemma SavedAtExtend(db: Db, visit: Company -> Injection, i: nat, processed: nat, saves: seq<nat>)
    requires i < |db.keys| && Covers(db.keys, db.companies)
    requires SavedAt(db, visit, i, processed, saves)
    requires processed + 1 == 5 * (|saves| + 1)
    requires Successes(db.keys, db.companies, visit, i + 1) == processed + 1
    requires visit(db.companies[db.keys[i]]).error.None?
    ensures SavedAt(db, visit, i + 1, processed + 1, saves + [i + 1])
  {
  }

  /** The answer to "Continue? [y/N]": an empty answer counts as "n", and
      only "y" in either case goes on. */
  predicate Proceeds(answer: string) {
    Lower(if answer == "" then "n" else answer) == "y"
  }

  /** Exactly the answers "y" and "Y" go on. */
  lemma ProceedsIff(answer: string)
    ensures Proceeds(answer) <==> answer == "y" || answer == "Y"
  {
    var choice := if answer == "" then "n" else answer;
    if Proceeds(answer) {
      assert |Lower(choice)| == |choice| == 1 && Lower(choice)[0] == LowerChar(choice[0]);
      assert answer == [answer[0]];
    }
  }

  /** The `try` body of the loop, with the reply the registry gives for
      each company's `mbs`. */
  function Attempt(detail: Value -> DetailReply): (visit: Company -> Injection)
    ensures KeepsMbs(visit)
  {
    (c: Company) => TryDetails(c, detail(c.mbs))
  }

  /** `fetch_company_details(db.get_all_companies())`, as the main menu
      calls it: after the prompt, each stored company in store order is
      enriched with its details, a failure for one company leaves it (and
      what `inject_details` assigned before raising) and goes on, and every
      fifth success saves the store. `processed` is `processed_count` and
      `saves` lists how many companies had been visited at each save. */
  method FetchCompanyDetails(db: Db, answer: string, detail: Value -> DetailReply) returns (r: Db, processed: nat, saves: seq<nat>)
    requires Valid(db)
    ensures Valid(r) && r.keys == db.keys && r.jobStatus == db.jobStatus
    ensures !Proceeds(answer) ==> r == db && processed == 0 && saves == []
    ensures Proceeds(answer) ==> forall j :: 0 <= j < |db.keys| ==>
      GetAllCompanies(r)[j] == TryDetails(GetAllCompanies(db)[j], detail(db.keys[j])).company
    ensures Proceeds(answer) ==>
      && Covers(db.keys, db.companies)
      && processed == Successes(db.keys, db.companies, Attempt(detail), |db.keys|)
      && SavedAt(db, Attempt(detail), |db.keys|, processed, saves)
    ensures r.isDirty == (db.isDirty && saves == [])
    ensures saves == [] ==> r.file == db.file
    ensures saves != [] ==> r.file == Json(Database.ToDict(Snapshot(db, Attempt(detail), saves[|saves| - 1])))
  {
    if !Proceeds(answer) {
      return db, 0, [];
    }
    r, processed, saves := EnrichAll(db, Attempt(detail));
    forall j | 0 <= j < |db.keys|
      ensures GetAllCompanies(r)[j] == TryDetails(GetAllCompanies(db)[j], detail(db.keys[j])).company
    {
      assert GetAllCompanies(db)[j].mbs == db.keys[j];
    }
  }

  /** The loop ends with the store clean although the successes after the
      last save, if the count is not a multiple of five, are in no save:
      the file reflects `5 * (processed / 5)` successes. */
  lemma UnsavedTail(db: Db, visit: Company -> Injection)
    requires Valid(db) && KeepsMbs(visit) && !db.isDirty
    ensures var p := Passes(db, visit, |db.keys|);
      && !p.isDirty
      && SavedAt(db, visit, |db.keys|, p.processed, p.saves)
      && (p.saves == [] <==> p.processed < 5)
      && (p.saves != [] ==> Successes(db.keys, db.companies, visit, p.saves[|p.saves| - 1]) == 5 * (p.processed / 5))
      && (p.processed % 5 != 0 ==> 5 * (p.processed / 5) < p.processed)
  {
    PassesEnrich(db, visit, |db.keys|);
  }

  /** `fetch_company_details` with a `save_db()` after the loop, so that the
      enrichment reaches the file whatever the count: the file then reads
      back as the enriched store. */
  method FetchCompanyDetailsSaved(db: Db, answer: string, detail: Value -> DetailReply) returns (r: Db, processed: nat)
    requires Valid(db)
    ensures Valid(r) && r.keys == db.keys && r.jobStatus == db.jobStatus
    ensures !Proceeds(answer) ==> r == db && processed == 0
    ensures Proceeds(answer) ==> forall j :: 0 <= j < |db.keys| ==>
      GetAllCompanies(r)[j] == TryDetails(GetAllCompanies(db)[j], detail(db.keys[j])).company
    ensures Proceeds(answer) ==>
      && Covers(db.keys, db.companies)
      && processed == Successes(db.keys, db.companies, Attempt(detail), |db.keys|)
      && !r.isDirty
      && LoadFromFile(r.file) == Ok(r)
  {
    var saves;
    r, processed, saves := FetchCompanyDetails(db, answer, detail);
    if Proceeds(answer) {
      LoadAfterSave(r);
      r := SaveToFile(r);
    }
  }
}

=== FILE: sudreg_service.dfy ===
/** The resumable bulk fetch of `services/sudreg_service.py`: the company
    list is fetched page by page from an offset, the pages are filtered into
    the store, and the offset is checkpointed after each page. The registry
    is given as its replies and the yes/no prompt as a parameter. The
    enrichment loop is in `SudregEnrichment`. */
module SudregService {
  import opened PyValues
  import opened Text
  import opened DataModels
  import opened Database

  /** The registry's answer to one `get_company_list(offset)` call: the page's
      records, or the exception the client raised. */
  datatype PageReply = Page(records: seq<Value>) | PageFailed(exc: Exc)

  /** The registry's answer to one `get_company_details_by_mbs(mbs)` call. */
  datatype DetailReply = Details(doc: Value) | DetailFailed(exc: Exc)

  /** Whether an optional offset argument is truthy: present and non-zero. */
  predicate TruthyOffset(offset: Option<int>) {
    offset.Some? && offset.value != 0
  }

  /** `set_fetch_job_status(offset)`: a truthy offset is written into the job
      status under `'offset'`, which needs the status to be a dict (item
      assignment on anything else raises TypeError); then the status is
      stored back, which marks the store dirty. */
  function SetJobOffset(db: Db, offset: Option<int>): (r: Result<Db>)
    requires Valid(db)
    ensures r.Err? <==> TruthyOffset(offset) && !db.jobStatus.Dict?
    ensures r.Err? ==> r.exc == TypeError
    ensures r.Ok? ==> && Valid(r.value) && r.value.isDirty
                      && GetAllCompanies(r.value) == GetAllCompanies(db) && r.value.file == db.file
    ensures r.Ok? && !TruthyOffset(offset) ==> r.value.jobStatus == db.jobStatus
    ensures r.Ok? && TruthyOffset(offset) ==>
      && r.value.jobStatus.Dict?
      && r.value.jobStatus.entries.Keys == db.jobStatus.entries.Keys + {"offset"}
      && r.value.jobStatus.entries["offset"] == Int(offset.value)
      && forall k :: k in db.jobStatus.entries && k != "offset" ==>
           r.value.jobStatus.entries[k] == db.jobStatus.entries[k]
  {
    var status := GetFetchJobStatus(db);
    if TruthyOffset(offset) then
      if !status.Dict? then Err(TypeError)
      else Ok(Database.SetFetchJobStatus(db, Dict(status.entries["offset" := Int(offset.value)])))
    else Ok(Database.SetFetchJobStatus(db, status))
  }

  /** The offset to resume from, given a stored value that compared greater
      than 0: an int, or `True`, which counts as 1. */
  function ResumeOffset(stored: Value): int {
    if stored.Int? then stored.i else 1
  }

  /** Where a bulk fetch starts: the store to fill and the first offset. */
  datatype Start = Start(db: Db, offset: int)

  /** Whether the job status records a positive offset to resume from. */
  predicate HasResumePoint(status: Value) {
    && status.Dict? && Truthy(status)
    && "offset" in status.entries
    && GreaterThanZero(status.entries["offset"]) == Ok(true)
  }

  /** The resume-or-restart decision at the top of `fetch_all_companies`.
      `resume` is the answer to the prompt (an empty answer means yes). A
      truthy status must have `get` (a dict) and its offset must compare with
      0. With a positive stored offset and a yes the store is kept and the
      fetch resumes there; a no clears the job status. Unless resuming, the
      companies are cleared and the fetch starts at 0. */
  function Begin(db: Db, resume: bool): (r: Result<Start>)
    requires Valid(db)
    ensures Truthy(db.jobStatus) && !db.jobStatus.Dict? ==> r == Err(AttributeError)
    ensures r.Err? <==>
      (Truthy(db.jobStatus) &&
       (!db.jobStatus.Dict? || GreaterThanZero(Get(db.jobStatus.entries, "offset", Int(0))).Err?))
    ensures r.Ok? ==> Valid(r.value.db) && r.value.db.file == db.file
    ensures r.Ok? && HasResumePoint(db.jobStatus) && resume ==>
      r.value == Start(db, ResumeOffset(db.jobStatus.entries["offset"]))
    ensures r.Ok? && !(HasResumePoint(db.jobStatus) && resume) ==>
      && r.value.offset == 0 && GetAllCompanies(r.value.db) == [] && r.value.db.isDirty
      && r.value.db.jobStatus == (if HasResumePoint(db.jobStatus) then Dict(map[]) else db.jobStatus)
  {
    var status := GetFetchJobStatus(db);
    if Truthy(status) then
      var stored :- GetMethod(status, "offset", Int(0));
      var positive :- GreaterThanZero(stored);
      if positive && resume then Ok(Start(db, ResumeOffset(stored)))
      else if positive then Ok(Start(Clear(Clear(db, false, true), true, false), 0))
      else Ok(Start(Clear(db, true, false), 0))
    else Ok(Start(Clear(db, true, false), 0))
  }

  /** Whether a page record's name contains `needle` once lower-cased:
      `c['ime']` needs a dict with an `ime` key, and only a str has `lower`. */
  function RecordMatches(record: Value, needle: string): (r: Result<bool>)
    ensures r.Ok? <==> record.Dict? && "ime" in record.entries && record.entries["ime"].Str?
    ensures r.Ok? ==> r.value == Occurs(Lower(record.entries["ime"].s), needle)
  {
    var ime :- Subscript(record, "ime");
    if !ime.Str? then Err(AttributeError)
    else
      ContainsIffOccurs(Lower(ime.s), needle);
      Ok(Contains(Lower(ime.s), needle))
  }

  /** The records of a page whose name matches `needle`, in page order; the
      first record that cannot be tested raises. */
  function SelectRecords(records: seq<Value>, needle: string): (r: Result<seq<Value>>)
    ensures r.Ok? <==> forall i :: 0 <= i < |records| ==> RecordMatches(records[i], needle).Ok?
    ensures r.Ok? ==> forall v :: v in r.value <==> v in records && RecordMatches(v, needle) == Ok(true)
  {
    if records == [] then Ok([])
    else
      var keep :- RecordMatches(records[0], needle);
      var rest :- SelectRecords(records[1..], needle);
      assert forall v :: v in records <==> v == records[0] || v in records[1..];
      Ok(if keep then [records[0]] + rest else rest)
  }

  /** Selecting from two runs of records one after the other selects from
      each in turn, so the kept records stay in page order. */
  lemma {:induction false} SelectRecordsAppend(xs: seq<Value>, ys: seq<Value>, needle: string)
    requires SelectRecords(xs + ys, needle).Ok?
    ensures SelectRecords(xs, needle).Ok? && SelectRecords(ys, needle).Ok?
    ensures SelectRecords(xs + ys, needle).value == SelectRecords(xs, needle).value + SelectRecords(ys, needle).value
    decreases |xs|
  {
    if xs == [] {
      assert xs + ys == ys;
    } else {
      var zs := xs + ys;
      assert zs[1..] == xs[1..] + ys;
      assert zs[0] == xs[0];
      var keep := RecordMatches(xs[0], needle);
      assert keep.Ok? && SelectRecords(zs[1..], needle).Ok?;
      SelectRecordsAppend(xs[1..], ys, needle);
      var left := SelectRecords(xs[1..], needle).value;
      var right := SelectRecords(ys, needle).value;
      assert SelectRecords(xs, needle).value == (if keep.value then [xs[0]] + left else left);
      assert SelectRecords(zs, needle).value == (if keep.value then [xs[0]] + (left + right) else left + right);
    }
  }

  /** One record is kept exactly when it can be tested and its name matches. */
  lemma SelectRecordsSingle(record: Value, needle: string)
    ensures SelectRecords([record], needle).Ok? <==> RecordMatches(record, needle).Ok?
    ensures RecordMatches(record, needle) == Ok(true) ==> SelectRecords([record], needle) == Ok([record])
    ensures RecordMatches(record, needle) == Ok(false) ==> SelectRecords([record], needle) == Ok([])
  {
    assert [record][1..] == [];
    assert SelectRecords([], needle) == Ok([]);
    assert [record] + [] == [record];
  }


  /** Whether the company filter is truthy. */
  predicate FilterSet(filter: Option<string>) {
    filter.Some? && filter.value != ""
  }

  /** `[c for c in companies if company_filter and c['ime'].lower().find(company_filter.lower()) > -1]`:
      with no filter nothing is kept and no record is looked at; otherwise the
      records whose lower-cased name contains the lower-cased filter. */
  function Kept(filter: Option<string>, records: seq<Value>): (r: Result<seq<Value>>)
    ensures !FilterSet(filter) ==> r == Ok([])
    ensures FilterSet(filter) ==> r == SelectRecords(records, Lower(filter.value))
  {
    if FilterSet(filter) then SelectRecords(records, Lower(filter.value)) else Ok([])
  }

  /** The store after adding a run of records, and the exception that
      stopped the additions, if any. */
  datatype Added = Added(db: Db, error: Option<Exc>)

  /** Whether every record of a run builds a company. */
  predicate AllCreate(records: seq<Value>)
    decreases |records|
  {
    records == [] || (records[0].Dict? && Create(records[0].entries).Ok? && AllCreate(records[1..]))
  }

  /** The companies `Company(**record)` builds from a run of records, in order. */
  function CreatedAll(records: seq<Value>): (cs: seq<Company>)
    requires AllCreate(records)
    ensures |cs| == |records|
    decreases |records|
  {
    if records == [] then [] else [Create(records[0].entries).value] + CreatedAll(records[1..])
  }

  /** Each company of `CreatedAll` is the one its record builds, and every
      record of the run is a mapping that builds one. */
  lemma {:induction false} CreatedAllAt(records: seq<Value>, i: nat)
    requires AllCreate(records) && i < |records|
    ensures records[i].Dict? && Create(records[i].entries) == Ok(CreatedAll(records)[i])
    decreases i
  {
    if i > 0 {
      CreatedAllAt(records[1..], i - 1);
      assert records[1..][i - 1] == records[i];
    }
  }

  /** `for company in kept: db.add_company(Company(**company))`: each record
      must be a mapping, each construction and each insertion may raise, and
      the additions made before an exception stay in the store. */
  function AddAll(db: Db, records: seq<Value>): (r: Added)
    requires Valid(db)
    ensures Valid(r.db) && r.db.jobStatus == db.jobStatus && r.db.file == db.file
    ensures GetAllCompanies(db) <= GetAllCompanies(r.db)
    ensures |r.db.keys| == |db.keys| ==> r.db == db
    ensures |r.db.keys| > |db.keys| ==> r.db.isDirty
    ensures r.error.None? ==> AllCreate(records) && GetAllCompanies(r.db) == GetAllCompanies(db) + CreatedAll(records)
    decreases |records|
  {
    if records == [] then Added(db, None)
    else if !records[0].Dict? then Added(db, Some(TypeError))
    else
      match Create(records[0].entries)
      case Err(e) => Added(db, Some(e))
      case Ok(c) =>
        match AddCompany(db, c)
        case Err(e) => Added(db, Some(e))
        case Ok(db') =>
          var r := AddAll(db', records[1..]);
          PrefixThroughStep(GetAllCompanies(db), c, GetAllCompanies(r.db));
          if r.error.None? then
            AppendThroughStep(GetAllCompanies(db), c, GetAllCompanies(db'), CreatedAll(records[1..]), GetAllCompanies(r.db));
            assert CreatedAll(records) == [c] + CreatedAll(records[1..]);
            r
          else r
  }

  /** Appending `c` and then `rest` appends `[c] + rest`. */
  lemma AppendThroughStep(cs: seq<Company>, c: Company, mid: seq<Company>, rest: seq<Company>, longer: seq<Company>)
    requires mid == cs + [c] && longer == mid + rest
    ensures longer == cs + ([c] + rest)
  {
  }

  /** A prefix of `cs + [c]` taken before a longer run is a prefix of it. */
  lemma PrefixThroughStep(cs: seq<Company>, c: Company, longer: seq<Company>)
    requires cs + [c] <= longer
    ensures cs <= longer
  {
    assert longer[..|cs|] == (cs + [c])[..|cs|];
  }

  /** Two runs of records that each build their companies build them one
      after the other. */
  lemma {:induction false} AllCreateAppend(xs: seq<Value>, ys: seq<Value>)
    requires AllCreate(xs) && AllCreate(ys)
    ensures AllCreate(xs + ys)
    decreases |xs|
  {
    if xs == [] {
      assert xs + ys == ys;
    } else {
      AllCreateAppend(xs[1..], ys);
      assert (xs + ys)[1..] == xs[1..] + ys;
    }
  }

  /** `CreatedAll` of two runs one after the other. */
  lemma {:induction false} CreatedAllAppend(xs: seq<Value>, ys: seq<Value>)
    requires AllCreate(xs) && AllCreate(ys)
    ensures AllCreate(xs + ys) && CreatedAll(xs + ys) == CreatedAll(xs) + CreatedAll(ys)
    decreases |xs|
  {
    AllCreateAppend(xs, ys);
    if xs == [] {
      assert xs + ys == ys;
    } else {
      CreatedAllAppend(xs[1..], ys);
      assert (xs + ys)[1..] == xs[1..] + ys;
      assert (xs + ys)[0] == xs[0];
    }
  }

  /** The reply to the `k`-th list request: the registry's replies in request
      order, and an empty page once they run out. */
  function Reply(pages: seq<PageReply>, k: nat): PageReply {
    if k < |pages| then pages[k] else Page([])
  }

  /** An empty page, which ends the loop. */
  predicate EmptyPage(reply: PageReply) {
    reply.Page? && reply.records == []
  }

  /** The `'offset'` entry of a job status, if it is a dict that has one. */
  function StatusOffset(status: Value): Option<Value> {
    if status.Dict? && "offset" in status.entries then Some(status.entries["offset"]) else None
  }

  /** A dict job status with its `'offset'` entry set to `offset` and every
      other entry kept. */
  function WithOffset(status: Value, offset: int): (r: Value)
    requires status.Dict?
    ensures StatusOffset(r) == Some(Int(offset))
  {
    Dict(status.entries["offset" := Int(offset)])
  }

  /** Setting the offset twice leaves only the second. */
  lemma WithOffsetTwice(status: Value, first: int, second: int)
    requires status.Dict?
    ensures WithOffset(WithOffset(status, first), second) == WithOffset(status, second)
  {
    assert WithOffset(WithOffset(status, first), second).entries == WithOffset(status, second).entries;
  }

  /** `self.set_fetch_job_status(offset)` followed by `self.save_db()`: the
      store is saved with the new offset in its job status and every other
      entry of the status kept; an offset of 0 is falsy and leaves the status
      alone. */
  function Checkpoint(db: Db, offset: int): (r: Result<Db>)
    requires Valid(db)
    ensures r.Err? <==> offset != 0 && !db.jobStatus.Dict?
    ensures r.Err? ==> r.exc == TypeError
    ensures r.Ok? ==> && Valid(r.value) && !r.value.isDirty
                      && GetAllCompanies(r.value) == GetAllCompanies(db)
                      && r.value.file == Json(Database.ToDict(r.value))
                      && (offset != 0 ==> StatusOffset(r.value.jobStatus) == Some(Int(offset)))
    ensures r.Ok? && offset != 0 ==> db.jobStatus.Dict? && r.value.jobStatus == WithOffset(db.jobStatus, offset)
    ensures r.Ok? && offset == 0 ==> r.value.jobStatus == db.jobStatus
  {
    var marked :- SetJobOffset(db, Some(offset));
    Ok(SaveToFile(marked))
  }

  /** What one round of the loop leaves: the loop stops (normally on an empty
      page, or with the exception that escaped), or it continues from the next
      offset. */
  datatype Step = Stop(db: Db, error: Option<Exc>) | Continue(db: Db, next: int)

  /** One round of the `while True` loop of `fetch_all_companies` on the reply
      to the request at `offset`: an empty page breaks; otherwise the kept
      records are added, the offset advances by the length of the whole page,
      the new offset is written to the job status and the store is saved. A
      non-empty page continues the loop exactly when its records filter, all
      of them are added and the checkpoint is written; otherwise the exception
      of the first of these that raises escapes, with the additions made
      before it kept. */
  function PageStep(db: Db, filter: Option<string>, reply: PageReply, offset: int): (s: Step)
    requires Valid(db)
    ensures Valid(s.db)
  {
    if reply.PageFailed? then Stop(db, Some(reply.exc))
    else if reply.records == [] then Stop(db, None)
    else
      match Kept(filter, reply.records)
      case Err(e) => Stop(db, Some(e))
      case Ok(kept) =>
        var added := AddAll(db, kept);
        if added.error.Some? then Stop(added.db, added.error)
        else
          match Checkpoint(added.db, offset + |reply.records|)
          case Err(e) => Stop(added.db, Some(e))
          case Ok(saved) => Continue(saved, offset + |reply.records|)
  }

  /** What a round leaves: a failed request or an empty page stops with the
      store untouched, and only an empty page stops without an exception; a
      round that continues has added the created companies of the kept
      records, and saved the store, checkpointed at the next offset. No
      round loses a company or, when it stops, writes the file. */
  lemma PageStepEffect(db: Db, filter: Option<string>, reply: PageReply, offset: int)
    requires Valid(db)
    ensures var s := PageStep(db, filter, reply, offset);
      && GetAllCompanies(db) <= GetAllCompanies(s.db)
      && (reply.PageFailed? ==> s == Stop(db, Some(reply.exc)))
      && (EmptyPage(reply) ==> s == Stop(db, None))
      && (s.Stop? ==> s.db.file == db.file && (s.error.None? <==> EmptyPage(reply)))
      && (s.Stop? ==> && s.db.jobStatus == db.jobStatus
                      && (|s.db.keys| == |db.keys| ==> s.db == db)
                      && (|s.db.keys| > |db.keys| ==> s.db.isDirty))
      && (s.Continue? && s.next != 0 ==> db.jobStatus.Dict? && s.db.jobStatus == WithOffset(db.jobStatus, s.next))
      && (s.Continue? && s.next == 0 ==> s.db.jobStatus == db.jobStatus)
      && (s.Continue? ==>
            && reply.Page? && reply.records != [] && s.next == offset + |reply.records|
            && Kept(filter, reply.records).Ok? && AllCreate(Kept(filter, reply.records).value)
            && GetAllCompanies(s.db) == GetAllCompanies(db) + CreatedAll(Kept(filter, reply.records).value)
            && !s.db.isDirty && s.db.file == Json(Database.ToDict(s.db))
            && (s.next != 0 ==> StatusOffset(s.db.jobStatus) == Some(Int(s.next))))
  {
    if reply.Page? && reply.records != [] {
      var kept := Kept(filter, reply.records);
      if kept.Ok? {
        var added := AddAll(db, kept.value);
        if added.error.None? {
          var saved := Checkpoint(added.db, offset + |reply.records|);
        }
      }
    }
  }

  /** When a non-empty page continues the loop and where the exception of
      one that does not comes from: the filter, the additions (whose earlier
      additions stay), or the checkpoint. */
  lemma PageStepOutcome(db: Db, filter: Option<string>, records: seq<Value>, offset: int)
    requires Valid(db) && records != []
    ensures var s := PageStep(db, filter, Page(records), offset);
      && (s.Continue? <==>
            && Kept(filter, records).Ok?
            && AddAll(db, Kept(filter, records).value).error.None?
            && Checkpoint(AddAll(db, Kept(filter, records).value).db, offset + |records|).Ok?)
      && (Kept(filter, records).Err? ==> s == Stop(db, Some(Kept(filter, records).exc)))
      && (Kept(filter, records).Ok? && AddAll(db, Kept(filter, records).value).error.Some? ==>
            s == Stop(AddAll(db, Kept(filter, records).value).db, AddAll(db, Kept(filter, records).value).error))
      && (Kept(filter, records).Ok? && AddAll(db, Kept(filter, records).value).error.None?
          && Checkpoint(AddAll(db, Kept(filter, records).value).db, offset + |records|).Err? ==>
            s == Stop(AddAll(db, Kept(filter, records).value).db, Some(TypeError)))
  {
  }

  /** A bulk fetch: the store it leaves, the offsets it requested in order,
      the exception that escaped, if any, and the store as it was last saved
      by the loop (the store it started from when it saved nothing). */
  datatype Run = Run(db: Db, requested: seq<int>, error: Option<Exc>, saved: Db)

  /** The number of records in a reply; a failed request has none. */
  function PageLength(reply: PageReply): nat {
    if reply.Page? then |reply.records| else 0
  }

  /** The total length of the `n` replies from the `i`-th on. */
  function Advance(pages: seq<PageReply>, i: nat, n: nat): nat
    decreases n
  {
    if n == 0 then 0 else PageLength(Reply(pages, i)) + Advance(pages, i + 1, n - 1)
  }

  /** Whether the `n` replies from the `i`-th on are pages whose records can
      all be filtered. */
  predicate KeptOk(filter: Option<string>, pages: seq<PageReply>, i: nat, n: nat) {
    forall k :: i <= k < i + n ==> Reply(pages, k).Page? && Kept(filter, Reply(pages, k).records).Ok?
  }

  /** The records kept from the `n` replies from the `i`-th on, in page order. */
  function KeptFrom(filter: Option<string>, pages: seq<PageReply>, i: nat, n: nat): seq<Value>
    requires KeptOk(filter, pages, i, n)
    decreases n
  {
    if n == 0 then [] else Kept(filter, Reply(pages, i).records).value + KeptFrom(filter, pages, i + 1, n - 1)
  }

  /** The offsets a run from the `i`-th request, at `offset`, asked for: a
      next offset only after a non-empty page, each the first plus the
      lengths of the whole pages before it, kept records or not; a run ends
      without an exception exactly when its last reply is an empty page, so a
      run stops at the first empty page or with an exception. */
  predicate Requests(pages: seq<PageReply>, i: nat, offset: int, requested: seq<int>, error: Option<Exc>) {
    && |requested| >= 1 && requested[0] == offset
    && (forall k :: i <= k < i + |requested| - 1 ==> Reply(pages, k).Page? && Reply(pages, k).records != [])
    && (forall j :: 0 <= j < |requested| ==> requested[j] == offset + Advance(pages, i, j))
    && (error.None? <==> EmptyPage(Reply(pages, i + |requested| - 1)))
  }

  /** The companies a run that fetched `n` pages from the `i`-th request on
      leaves in `final`, starting from `db`: the old ones stay first, and a
      run that ends without an exception has added the kept records of every
      page it fetched, in page order. */
  ghost predicate Gathered(db: Db, filter: Option<string>, pages: seq<PageReply>, i: nat, n: nat, final: Db, error: Option<Exc>)
    requires Valid(db) && Valid(final)
  {
    && GetAllCompanies(db) <= GetAllCompanies(final)
    && (error.None? ==>
          && KeptOk(filter, pages, i, n)
          && AllCreate(KeptFrom(filter, pages, i, n))
          && GetAllCompanies(final) == GetAllCompanies(db) + CreatedAll(KeptFrom(filter, pages, i, n)))
  }

  /** The checkpoints of a run on the store `db`: after every non-empty page
      the job status holds the new offset and the store is saved, so a run
      that fetched at least one page has on file the offset it would request
      next, and, when it ended normally, is saved and clean. A run that
      stopped at its first request left the file alone, and the store too
      unless an exception escaped. */
  ghost predicate Saved(db: Db, r: Run)
    requires Valid(db) && Valid(r.db) && |r.requested| >= 1
  {
    && (|r.requested| > 1 ==>
          && Valid(r.saved) && r.db.file == Json(Database.ToDict(r.saved))
          && GetAllCompanies(r.saved) <= GetAllCompanies(r.db)
          && (r.requested[0] >= 0 ==> StatusOffset(r.saved.jobStatus) == Some(Int(r.requested[|r.requested| - 1]))))
    && (|r.requested| > 1 ==>
          && !r.saved.isDirty && r.db.jobStatus == r.saved.jobStatus
          && (|r.db.keys| == |r.saved.keys| ==> r.db == r.saved)
          && (|r.db.keys| > |r.saved.keys| ==> r.db.isDirty))
    && (|r.requested| > 1 && r.requested[0] >= 0 ==>
          db.jobStatus.Dict? && r.saved.jobStatus == WithOffset(db.jobStatus, r.requested[|r.requested| - 1]))
    && (|r.requested| > 1 && r.error.None? ==> !r.db.isDirty && r.db.file == Json(Database.ToDict(r.db)))
    && (|r.requested| == 1 ==>
          && r.db.file == db.file && r.db.jobStatus == db.jobStatus
          && (|r.db.keys| == |db.keys| ==> r.db == db)
          && (|r.db.keys| > |db.keys| ==> r.db.isDirty))
    && (|r.requested| == 1 && r.error.None? ==> r.db == db)
  }

  /** The durability of a run's checkpoints: once a page has been fetched,
      the store last saved holds the companies it started from followed by
      the kept records of every page before the last request, whether or not
      an exception escaped later, so the file's companies always match the
      offset saved with them. */
  ghost predicate Durable(db: Db, filter: Option<string>, pages: seq<PageReply>, i: nat, r: Run)
    requires Valid(db)
  {
    |r.requested| > 1 ==>
      && Valid(r.saved)
      && KeptOk(filter, pages, i, |r.requested| - 1)
      && AllCreate(KeptFrom(filter, pages, i, |r.requested| - 1))
      && GetAllCompanies(r.saved) == GetAllCompanies(db) + CreatedAll(KeptFrom(filter, pages, i, |r.requested| - 1))
  }

  /** A run of replies with no company filter in which every reply from the
      `i`-th on is a page: nothing is kept, so nothing can raise but the
      checkpoint. */
  predicate PlainRun(filter: Option<string>, pages: seq<PageReply>, i: nat) {
    !FilterSet(filter) && forall k :: i <= k < |pages| ==> pages[k].Page?
  }

  /** How a run ended: the round on its last request, run on the store as
      last saved (the store it started from when only one request went out),
      stopped the loop with the run's store and exception. */
  ghost predicate Ended(db: Db, filter: Option<string>, pages: seq<PageReply>, i: nat, r: Run)
    requires Valid(db) && |r.requested| >= 1
  {
    && (|r.requested| == 1 ==> r.saved == db)
    && Valid(r.saved)
    && PageStep(r.saved, filter, Reply(pages, i + |r.requested| - 1), r.requested[|r.requested| - 1]) == Stop(r.db, r.error)
  }

  /** Whether the loop from the `i`-th request, at `offset`, on `db` reaches
      an empty page without an exception: every round before it continues. */
  ghost predicate Completes(db: Db, filter: Option<string>, pages: seq<PageReply>, i: nat, offset: int)
    requires Valid(db)
    decreases |pages| - i
  {
    match PageStep(db, filter, Reply(pages, i), offset)
    case Stop(_, error) => error.None?
    case Continue(after, next) => i < |pages| && Completes(after, filter, pages, i + 1, next)
  }

  /** The `while True` loop of `fetch_all_companies` from the `i`-th request,
      at `offset`; `pages` are the registry's replies in request order. */
  method Pull(db: Db, filter: Option<string>, pages: seq<PageReply>, i: nat, offset: int) returns (r: Run)
    requires Valid(db)
    ensures Valid(r.db) && Requests(pages, i, offset, r.requested, r.error)
    ensures Gathered(db, filter, pages, i, |r.requested| - 1, r.db, r.error)
    ensures Saved(db, r)
    ensures Durable(db, filter, pages, i, r)
    ensures Ended(db, filter, pages, i, r)
    ensures r.error.None? <==> Completes(db, filter, pages, i, offset)
    ensures PlainRun(filter, pages, i) && db.jobStatus.Dict? && offset >= 0 ==> r.error.None?
    decreases |pages| - i, 1
  {
    if PlainRun(filter, pages, i) && db.jobStatus.Dict? && offset >= 0 {
      NoFilterCompletes(db, filter, pages, i, offset);
    }
    var step := PageStep(db, filter, Reply(pages, i), offset);
    PageStepEffect(db, filter, Reply(pages, i), offset);
    match step
    case Stop(after, error) =>
      r := Run(after, [offset], error, db);
      StopRun(db, filter, pages, i, offset, r);
    case Continue(after, next) =>
      assert i < |pages|;
      r := PullOn(db, filter, pages, i, offset, after);
  }

  /** The whole `while True` loop from its first request at `offset`: what
      `Pull` promises about the pages it reads and the stores it leaves,
      without the round-by-round account of how it ended. */
  method Loop(db: Db, filter: Option<string>, pages: seq<PageReply>, offset: int) returns (r: Run)
    requires Valid(db)
    ensures Valid(r.db) && Requests(pages, 0, offset, r.requested, r.error)
    ensures Gathered(db, filter, pages, 0, |r.requested| - 1, r.db, r.error)
    ensures Saved(db, r)
    ensures Durable(db, filter, pages, 0, r)
    ensures PlainRun(filter, pages, 0) && db.jobStatus.Dict? && offset >= 0 ==> r.error.None?
  {
    r := Pull(db, filter, pages, 0, offset);
  }

  /** The rest of the loop after the `i`-th page, requested at `offset`, was
      added to `db` and saved, giving `after`: the next request is at the
      offset advanced by that page's length. */
  method PullOn(db: Db, filter: Option<string>, pages: seq<PageReply>, i: nat, offset: int, after: Db) returns (r: Run)
    requires Valid(db) && Valid(after) && i < |pages|
    requires Reply(pages, i).Page? && Reply(pages, i).records != []
    requires Kept(filter, Reply(pages, i).records).Ok? && AllCreate(Kept(filter, Reply(pages, i).records).value)
    requires GetAllCompanies(after) == GetAllCompanies(db) + CreatedAll(Kept(filter, Reply(pages, i).records).value)
    requires !after.isDirty && after.file == Json(Database.ToDict(after))
    requires offset + |Reply(pages, i).records| != 0 ==>
      StatusOffset(after.jobStatus) == Some(Int(offset + |Reply(pages, i).records|))
    requires PageStep(db, filter, Reply(pages, i), offset) == Continue(after, offset + |Reply(pages, i).records|)
    ensures Valid(r.db) && Requests(pages, i, offset, r.requested, r.error)
    ensures Gathered(db, filter, pages, i, |r.requested| - 1, r.db, r.error)
    ensures Saved(db, r)
    ensures Durable(db, filter, pages, i, r)
    ensures Ended(db, filter, pages, i, r)
    ensures r.error.None? <==> Completes(db, filter, pages, i, offset)
    decreases |pages| - i, 0
  {
    PageStepEffect(db, filter, Reply(pages, i), offset);
    var rest := Pull(after, filter, pages, i + 1, offset + |Reply(pages, i).records|);
    r := Extend(offset, after, rest);
    ContinueGathered(db, filter, pages, i, offset, after, rest, r);
    ContinueSaved(db, filter, pages, i, offset, after, rest, r);
    ContinueEnded(db, filter, pages, i, offset, after, rest, r);
    ContinueCompletes(db, filter, pages, i, offset, after, offset + |Reply(pages, i).records|);
  }

  /** The run made of one fetched and saved page, which left `after`,
      followed by the run `rest`. */
  function Extend(offset: int, after: Db, rest: Run): Run {
    Run(rest.db, [offset] + rest.requested, rest.error, if |rest.requested| == 1 then after else rest.saved)
  }

  /** A run that fetched the `i`-th page, added its kept records to `db` and
      saved, giving `after`, and then went on with `rest`, requested the
      offsets of the loop and gathered the kept records of its pages. */
  lemma ContinueGathered(db: Db, filter: Option<string>, pages: seq<PageReply>, i: nat, offset: int, after: Db, rest: Run, r: Run)
    requires Valid(db) && Valid(after) && Valid(rest.db)
    requires Reply(pages, i).Page? && Reply(pages, i).records != []
    requires Kept(filter, Reply(pages, i).records).Ok? && AllCreate(Kept(filter, Reply(pages, i).records).value)
    requires GetAllCompanies(after) == GetAllCompanies(db) + CreatedAll(Kept(filter, Reply(pages, i).records).value)
    requires Requests(pages, i + 1, offset + |Reply(pages, i).records|, rest.requested, rest.error)
    requires Gathered(after, filter, pages, i + 1, |rest.requested| - 1, rest.db, rest.error)
    requires r == Extend(offset, after, rest)
    ensures Requests(pages, i, offset, r.requested, r.error)
    ensures Gathered(db, filter, pages, i, |r.requested| - 1, r.db, r.error)
  {
    var n: nat := |rest.requested| - 1;
    assert |[offset] + rest.requested| - 1 == n + 1;
    RequestsStep(pages, i, offset, rest.requested, rest.error);
    GatheredStep(db, filter, pages, i, after, n, rest.db, rest.error);
  }

  /** The same run keeps the checkpoints of the loop and their durability. */
  lemma ContinueSaved(db: Db, filter: Option<string>, pages: seq<PageReply>, i: nat, offset: int, after: Db, rest: Run, r: Run)
    requires Valid(db) && Valid(after) && Valid(rest.db)
    requires Reply(pages, i).Page? && Reply(pages, i).records != []
    requires Kept(filter, Reply(pages, i).records).Ok? && AllCreate(Kept(filter, Reply(pages, i).records).value)
    requires GetAllCompanies(after) == GetAllCompanies(db) + CreatedAll(Kept(filter, Reply(pages, i).records).value)
    requires !after.isDirty && after.file == Json(Database.ToDict(after))
    requires offset + |Reply(pages, i).records| != 0 ==>
      StatusOffset(after.jobStatus) == Some(Int(offset + |Reply(pages, i).records|))
    requires offset + |Reply(pages, i).records| != 0 ==>
      db.jobStatus.Dict? && after.jobStatus == WithOffset(db.jobStatus, offset + |Reply(pages, i).records|)
    requires Requests(pages, i + 1, offset + |Reply(pages, i).records|, rest.requested, rest.error)
    requires GetAllCompanies(after) <= GetAllCompanies(rest.db)
    requires Saved(after, rest) && Durable(after, filter, pages, i + 1, rest)
    requires r == Extend(offset, after, rest)
    ensures Saved(db, r) && Durable(db, filter, pages, i, r)
  {
    SavedStep(db, offset, after, rest);
    DurableStep(db, filter, pages, i, offset, after, rest);
  }

  /** The same run ended as its continuation `rest` did. */
  lemma ContinueEnded(db: Db, filter: Option<string>, pages: seq<PageReply>, i: nat, offset: int, after: Db, rest: Run, r: Run)
    requires Valid(db) && Valid(after) && |rest.requested| >= 1
    requires Ended(after, filter, pages, i + 1, rest)
    requires r == Extend(offset, after, rest)
    ensures Ended(db, filter, pages, i, r)
  {
    assert i + |r.requested| - 1 == i + 1 + |rest.requested| - 1;
    assert r.requested[|r.requested| - 1] == rest.requested[|rest.requested| - 1];
  }

  /** A run that continues after the `i`-th page completes exactly when its
      continuation does. */
  lemma ContinueCompletes(db: Db, filter: Option<string>, pages: seq<PageReply>, i: nat, offset: int, after: Db, next: int)
    requires Valid(db) && i < |pages|
    requires PageStep(db, filter, Reply(pages, i), offset) == Continue(after, next)
    ensures Valid(after)
    ensures Completes(db, filter, pages, i, offset) == Completes(after, filter, pages, i + 1, next)
  {
  }

  /** A run that stops at its first request: one request, nothing fetched
      from it, and the file as it was. */
  lemma StopRun(db: Db, filter: Option<string>, pages: seq<PageReply>, i: nat, offset: int, r: Run)
    requires Valid(db) && r.requested == [offset] && r.saved == db
    requires PageStep(db, filter, Reply(pages, i), offset) == Stop(r.db, r.error)
    ensures Valid(r.db) && Requests(pages, i, offset, r.requested, r.error)
    ensures Gathered(db, filter, pages, i, |r.requested| - 1, r.db, r.error)
    ensures Saved(db, r) && Durable(db, filter, pages, i, r) && Ended(db, filter, pages, i, r)
    ensures r.error.None? <==> Completes(db, filter, pages, i, offset)
  {
    PageStepEffect(db, filter, Reply(pages, i), offset);
    assert |r.requested| - 1 == 0;
  }

  /** The offsets of a run that continues after a non-empty page with `rest`. */
  lemma RequestsStep(pages: seq<PageReply>, i: nat, offset: int, rest: seq<int>, error: Option<Exc>)
    requires Reply(pages, i).Page? && Reply(pages, i).records != []
    requires Requests(pages, i + 1, offset + |Reply(pages, i).records|, rest, error)
    ensures Requests(pages, i, offset, [offset] + rest, error)
  {
    var requested := [offset] + rest;
    forall j | 1 <= j < |requested|
      ensures requested[j] == offset + Advance(pages, i, j)
    {
      assert requested[j] == rest[j - 1];
    }
  }

  /** The companies of a run that added the `i`-th page's kept records to
      `db`, giving `after`, and then fetched `n` more pages. */
  lemma GatheredStep(db: Db, filter: Option<string>, pages: seq<PageReply>, i: nat, after: Db, n: nat, final: Db, error: Option<Exc>)
    requires Valid(db) && Valid(after) && Valid(final)
    requires Reply(pages, i).Page? && Kept(filter, Reply(pages, i).records).Ok?
    requires AllCreate(Kept(filter, Reply(pages, i).records).value)
    requires GetAllCompanies(after) == GetAllCompanies(db) + CreatedAll(Kept(filter, Reply(pages, i).records).value)
    requires Gathered(after, filter, pages, i + 1, n, final, error)
    ensures Gathered(db, filter, pages, i, n + 1, final, error)
  {
    var kept := Kept(filter, Reply(pages, i).records).value;
    if error.None? {
      var later := KeptFrom(filter, pages, i + 1, n);
      assert KeptFrom(filter, pages, i, n + 1) == kept + later;
      CreatedAllAppend(kept, later);
      AppendAssociates(GetAllCompanies(db), CreatedAll(kept), CreatedAll(later));
    }
  }

  lemma AppendAssociates(a: seq<Company>, b: seq<Company>, c: seq<Company>)
    ensures a + b + c == a + (b + c)
  {
  }

  /** The checkpoints of a run whose first page was added to `db` and saved,
      giving `after`, and which continued with `rest`. */
  lemma SavedStep(db: Db, offset: int, after: Db, rest: Run)
    requires Valid(db) && Valid(after) && Valid(rest.db) && |rest.requested| >= 1
    requires !after.isDirty && after.file == Json(Database.ToDict(after))
    requires rest.requested[0] != 0 ==> StatusOffset(after.jobStatus) == Some(Int(rest.requested[0]))
    requires rest.requested[0] != 0 ==> db.jobStatus.Dict? && after.jobStatus == WithOffset(db.jobStatus, rest.requested[0])
    requires rest.requested[0] > offset
    requires GetAllCompanies(after) <= GetAllCompanies(rest.db)
    requires Saved(after, rest)
    ensures Saved(db, Run(rest.db, [offset] + rest.requested, rest.error, if |rest.requested| == 1 then after else rest.saved))
  {
    if |rest.requested| > 1 && offset >= 0 {
      WithOffsetTwice(db.jobStatus, rest.requested[0], rest.requested[|rest.requested| - 1]);
    }
  }

  /** The durability of a run whose `i`-th page was added to `db` and saved,
      giving `after`, and which continued with `rest`. */
  lemma DurableStep(db: Db, filter: Option<string>, pages: seq<PageReply>, i: nat, offset: int, after: Db, rest: Run)
    requires Valid(db) && Valid(after) && |rest.requested| >= 1
    requires Reply(pages, i).Page? && Kept(filter, Reply(pages, i).records).Ok?
    requires AllCreate(Kept(filter, Reply(pages, i).records).value)
    requires GetAllCompanies(after) == GetAllCompanies(db) + CreatedAll(Kept(filter, Reply(pages, i).records).value)
    requires Durable(after, filter, pages, i + 1, rest)
    ensures Durable(db, filter, pages, i,
                    Run(rest.db, [offset] + rest.requested, rest.error, if |rest.requested| == 1 then after else rest.saved))
  {
    var kept := Kept(filter, Reply(pages, i).records).value;
    var n: nat := |rest.requested| - 1;
    assert |[offset] + rest.requested| - 1 == n + 1;
    var later := KeptFrom(filter, pages, i + 1, n);
    assert KeptFrom(filter, pages, i, n + 1) == kept + later;
    if n == 0 {
      assert kept + later == kept;
    } else {
      CreatedAllAppend(kept, later);
      AppendAssociates(GetAllCompanies(db), CreatedAll(kept), CreatedAll(later));
    }
  }

  /** `fetch_all_companies()`: the resume-or-restart prologue, then the
      page loop from the chosen offset; it returns the store's companies, or
      the exception that escaped. When the prologue raises no request is made
      and the store is untouched. */
  method FetchAll(db: Db, resume: bool, filter: Option<string>, pages: seq<PageReply>)
    returns (r: Run, companies: Result<seq<Company>>)
    requires Valid(db)
    ensures Valid(r.db)
    ensures companies.Ok? <==> r.error.None?
    ensures companies.Ok? ==> companies.value == GetAllCompanies(r.db)
    ensures companies.Err? ==> r.error == Some(companies.exc)
    ensures r.requested == [] <==>
      Truthy(db.jobStatus) &&
      (!db.jobStatus.Dict? || GreaterThanZero(Get(db.jobStatus.entries, "offset", Int(0))).Err?)
    ensures r.requested == [] ==> r.db == db && companies.Err?
    ensures r.requested != [] ==> Requests(pages, 0, r.requested[0], r.requested, r.error)
    ensures HasResumePoint(db.jobStatus) && resume ==>
      && r.requested != [] && r.requested[0] == ResumeOffset(db.jobStatus.entries["offset"])
      && GetAllCompanies(db) <= GetAllCompanies(r.db)
      && (r.error.None? ==>
            && KeptOk(filter, pages, 0, |r.requested| - 1) && AllCreate(KeptFrom(filter, pages, 0, |r.requested| - 1))
            && GetAllCompanies(r.db) == GetAllCompanies(db) + CreatedAll(KeptFrom(filter, pages, 0, |r.requested| - 1)))
    ensures r.requested != [] && !(HasResumePoint(db.jobStatus) && resume) ==>
      && r.requested[0] == 0
      && (r.error.None? ==>
            && KeptOk(filter, pages, 0, |r.requested| - 1) && AllCreate(KeptFrom(filter, pages, 0, |r.requested| - 1))
            && GetAllCompanies(r.db) == CreatedAll(KeptFrom(filter, pages, 0, |r.requested| - 1)))
    ensures |r.requested| > 1 ==>
      && Valid(r.saved) && r.db.file == Json(Database.ToDict(r.saved))
      && GetAllCompanies(r.saved) <= GetAllCompanies(r.db)
      && (r.requested[0] >= 0 ==> StatusOffset(r.saved.jobStatus) == Some(Int(r.requested[|r.requested| - 1])))
    ensures |r.requested| > 1 && r.error.None? ==> !r.db.isDirty && r.db.file == Json(Database.ToDict(r.db))
    ensures |r.requested| <= 1 ==> r.db.file == db.file
    ensures FetchFrame(db, resume, r)
    ensures |r.requested| > 1 ==>
      KeptOk(filter, pages, 0, |r.requested| - 1) && AllCreate(KeptFrom(filter, pages, 0, |r.requested| - 1))
    ensures |r.requested| > 1 && HasResumePoint(db.jobStatus) && resume ==>
      GetAllCompanies(r.saved) == GetAllCompanies(db) + CreatedAll(KeptFrom(filter, pages, 0, |r.requested| - 1))
    ensures |r.requested| > 1 && !(HasResumePoint(db.jobStatus) && resume) ==>
      GetAllCompanies(r.saved) == CreatedAll(KeptFrom(filter, pages, 0, |r.requested| - 1))
    ensures PlainRun(filter, pages, 0) && db.jobStatus.Dict?
            && GreaterThanZero(Get(db.jobStatus.entries, "offset", Int(0))).Ok? ==>
      && companies.Ok? && r.requested != []
      && EmptyPage(Reply(pages, |r.requested| - 1))
      && forall k :: 0 <= k < |r.requested| - 1 ==> Reply(pages, k).records != []
  {
    var start := Begin(db, resume);
    if start.Err? {
      return Run(db, [], Some(start.exc), db), Err(start.exc);
    }
    r, companies := FetchLoop(db, resume, filter, pages);
  }

  /** A fetch that got past its start: the loop from the store `Begin` left,
      and the companies it returns. */
  method FetchLoop(db: Db, resume: bool, filter: Option<string>, pages: seq<PageReply>)
    returns (r: Run, companies: Result<seq<Company>>)
    requires Valid(db) && Begin(db, resume).Ok?
    ensures Valid(r.db)
    ensures companies.Ok? <==> r.error.None?
    ensures companies.Ok? ==> companies.value == GetAllCompanies(r.db)
    ensures companies.Err? ==> r.error == Some(companies.exc)
    ensures r.requested != [] && r.requested[0] == Begin(db, resume).value.offset
    ensures r.requested != [] ==> Requests(pages, 0, r.requested[0], r.requested, r.error)
    ensures HasResumePoint(db.jobStatus) && resume ==>
      && r.requested != [] && r.requested[0] == ResumeOffset(db.jobStatus.entries["offset"])
      && GetAllCompanies(db) <= GetAllCompanies(r.db)
      && (r.error.None? ==>
            && KeptOk(filter, pages, 0, |r.requested| - 1) && AllCreate(KeptFrom(filter, pages, 0, |r.requested| - 1))
            && GetAllCompanies(r.db) == GetAllCompanies(db) + CreatedAll(KeptFrom(filter, pages, 0, |r.requested| - 1)))
    ensures r.requested != [] && !(HasResumePoint(db.jobStatus) && resume) ==>
      && r.requested[0] == 0
      && (r.error.None? ==>
            && KeptOk(filter, pages, 0, |r.requested| - 1) && AllCreate(KeptFrom(filter, pages, 0, |r.requested| - 1))
            && GetAllCompanies(r.db) == CreatedAll(KeptFrom(filter, pages, 0, |r.requested| - 1)))
    ensures |r.requested| > 1 ==>
      && Valid(r.saved) && r.db.file == Json(Database.ToDict(r.saved))
      && GetAllCompanies(r.saved) <= GetAllCompanies(r.db)
      && (r.requested[0] >= 0 ==> StatusOffset(r.saved.jobStatus) == Some(Int(r.requested[|r.requested| - 1])))
    ensures |r.requested| > 1 && r.error.None? ==> !r.db.isDirty && r.db.file == Json(Database.ToDict(r.db))
    ensures |r.requested| <= 1 ==> r.db.file == db.file
    ensures FetchFrame(db, resume, r)
    ensures |r.requested| > 1 ==>
      KeptOk(filter, pages, 0, |r.requested| - 1) && AllCreate(KeptFrom(filter, pages, 0, |r.requested| - 1))
    ensures |r.requested| > 1 && HasResumePoint(db.jobStatus) && resume ==>
      GetAllCompanies(r.saved) == GetAllCompanies(db) + CreatedAll(KeptFrom(filter, pages, 0, |r.requested| - 1))
    ensures |r.requested| > 1 && !(HasResumePoint(db.jobStatus) && resume) ==>
      GetAllCompanies(r.saved) == CreatedAll(KeptFrom(filter, pages, 0, |r.requested| - 1))
    ensures PlainRun(filter, pages, 0) && db.jobStatus.Dict?
            && GreaterThanZero(Get(db.jobStatus.entries, "offset", Int(0))).Ok? ==>
      && companies.Ok? && r.requested != []
      && EmptyPage(Reply(pages, |r.requested| - 1))
      && forall k :: 0 <= k < |r.requested| - 1 ==> Reply(pages, k).records != []
  {
    var start := Begin(db, resume).value;
    r := Loop(start.db, filter, pages, start.offset);
    FetchOutcome(db, resume, filter, pages, r);
    FetchStatus(db, resume, r);
    if r.error.Some? {
      return r, Err(r.error.value);
    }
    return r, Ok(GetAllCompanies(r.db));
  }

  /** What a fetch that got past its start gathers and saves, from what the
      loop promises about the store `Begin` handed it: a resume adds to the
      stored companies, a restart to none. */
  lemma FetchOutcome(db: Db, resume: bool, filter: Option<string>, pages: seq<PageReply>, r: Run)
    requires Valid(db) && Begin(db, resume).Ok?
    requires Valid(r.db) && Requests(pages, 0, Begin(db, resume).value.offset, r.requested, r.error)
    requires Gathered(Begin(db, resume).value.db, filter, pages, 0, |r.requested| - 1, r.db, r.error)
    requires Saved(Begin(db, resume).value.db, r)
    requires Durable(Begin(db, resume).value.db, filter, pages, 0, r)
    ensures r.requested != [] && r.requested[0] == Begin(db, resume).value.offset
    ensures r.requested != [] ==> Requests(pages, 0, r.requested[0], r.requested, r.error)
    ensures HasResumePoint(db.jobStatus) && resume ==>
      && r.requested != [] && r.requested[0] == ResumeOffset(db.jobStatus.entries["offset"])
      && GetAllCompanies(db) <= GetAllCompanies(r.db)
      && (r.error.None? ==>
            && KeptOk(filter, pages, 0, |r.requested| - 1) && AllCreate(KeptFrom(filter, pages, 0, |r.requested| - 1))
            && GetAllCompanies(r.db) == GetAllCompanies(db) + CreatedAll(KeptFrom(filter, pages, 0, |r.requested| - 1)))
    ensures r.requested != [] && !(HasResumePoint(db.jobStatus) && resume) ==>
      && r.requested[0] == 0
      && (r.error.None? ==>
            && KeptOk(filter, pages, 0, |r.requested| - 1) && AllCreate(KeptFrom(filter, pages, 0, |r.requested| - 1))
            && GetAllCompanies(r.db) == CreatedAll(KeptFrom(filter, pages, 0, |r.requested| - 1)))
    ensures |r.requested| > 1 ==>
      && Valid(r.saved) && r.db.file == Json(Database.ToDict(r.saved))
      && GetAllCompanies(r.saved) <= GetAllCompanies(r.db)
      && (r.requested[0] >= 0 ==> StatusOffset(r.saved.jobStatus) == Some(Int(r.requested[|r.requested| - 1])))
    ensures |r.requested| > 1 && r.error.None? ==> !r.db.isDirty && r.db.file == Json(Database.ToDict(r.db))
    ensures |r.requested| <= 1 ==> r.db.file == db.file
    ensures |r.requested| > 1 ==>
      KeptOk(filter, pages, 0, |r.requested| - 1) && AllCreate(KeptFrom(filter, pages, 0, |r.requested| - 1))
    ensures |r.requested| > 1 && HasResumePoint(db.jobStatus) && resume ==>
      GetAllCompanies(r.saved) == GetAllCompanies(db) + CreatedAll(KeptFrom(filter, pages, 0, |r.requested| - 1))
    ensures |r.requested| > 1 && !(HasResumePoint(db.jobStatus) && resume) ==>
      GetAllCompanies(r.saved) == CreatedAll(KeptFrom(filter, pages, 0, |r.requested| - 1))
  {
  }

  /** The job status a fetch of `db` leaves in run `r`: the last save is
      clean and holds the status the fetch started from with the last offset
      requested written into it, so a resume keeps the other entries of the
      stored status and a declined resume keeps none; the store returned has
      that status, and is the saved store when it holds nothing new since the
      save and dirty otherwise. A fetch that stops at its first request keeps
      the status it started from. */
  predicate FetchFrame(db: Db, resume: bool, r: Run) {
    && (|r.requested| > 1 ==>
          && !r.saved.isDirty && r.db.jobStatus == r.saved.jobStatus
          && (|r.db.keys| == |r.saved.keys| ==> r.db == r.saved)
          && (|r.db.keys| > |r.saved.keys| ==> r.db.isDirty))
    && (|r.requested| > 1 && !(HasResumePoint(db.jobStatus) && !resume) ==>
          db.jobStatus.Dict? && r.saved.jobStatus == WithOffset(db.jobStatus, r.requested[|r.requested| - 1]))
    && (|r.requested| > 1 && HasResumePoint(db.jobStatus) && !resume ==>
          r.saved.jobStatus == Dict(map["offset" := Int(r.requested[|r.requested| - 1])]))
    && (|r.requested| == 1 ==>
          r.db.jobStatus == (if HasResumePoint(db.jobStatus) && !resume then Dict(map[]) else db.jobStatus))
  }

  /** A fetch whose page loop kept the job status frame of `Saved` leaves
      the status `FetchFrame` describes. */
  lemma FetchStatus(db: Db, resume: bool, r: Run)
    requires Valid(db) && Begin(db, resume).Ok?
    requires Valid(r.db) && |r.requested| >= 1 && r.requested[0] == Begin(db, resume).value.offset
    requires Saved(Begin(db, resume).value.db, r)
    ensures FetchFrame(db, resume, r)
  {
    var start := Begin(db, resume).value;
    assert start.offset >= 0;
    if |r.requested| > 1 && HasResumePoint(db.jobStatus) && !resume {
      assert start.db.jobStatus == Dict(map[]);
      assert WithOffset(start.db.jobStatus, r.requested[|r.requested| - 1]).entries
          == map["offset" := Int(r.requested[|r.requested| - 1])];
    }
  }

  /** Without a truthy company filter the loop keeps no record, so a fetch
      adds no company: it pages through the whole list for nothing. */
  lemma {:induction false} NoFilterKeepsNothing(filter: Option<string>, pages: seq<PageReply>, i: nat, n: nat)
    requires !FilterSet(filter)
    ensures KeptOk(filter, pages, i, n) <==> forall k :: i <= k < i + n ==> Reply(pages, k).Page?
    ensures KeptOk(filter, pages, i, n) ==> KeptFrom(filter, pages, i, n) == [] && CreatedAll(KeptFrom(filter, pages, i, n)) == []
    decreases n
  {
    if n > 0 {
      NoFilterKeepsNothing(filter, pages, i + 1, n - 1);
    }
  }

  /** Without a truthy filter, on a store whose job status is a dict, a
      registry that answers every request with a page is read without an
      exception up to its first empty page: nothing is kept, so nothing can
      fail to be added, and the offset can always be written. */
  lemma {:induction false} NoFilterCompletes(db: Db, filter: Option<string>, pages: seq<PageReply>, i: nat, offset: int)
    requires Valid(db) && PlainRun(filter, pages, i) && db.jobStatus.Dict? && offset >= 0
    ensures Completes(db, filter, pages, i, offset)
    decreases |pages| - i
  {
    var reply := Reply(pages, i);
    if i < |pages| && reply.records != [] {
      assert Kept(filter, reply.records) == Ok([]);
      assert AddAll(db, []) == Added(db, None);
      var next := offset + |reply.records|;
      var saved := Checkpoint(db, next);
      assert PageStep(db, filter, reply, offset) == Continue(saved.value, next);
      NoFilterCompletes(saved.value, filter, pages, i + 1, next);
    }
  }

  /** The offsets before the `j`-th request of a run grow with `j`: every page
      but the last was non-empty. */
  lemma {:induction false} AdvanceGrows(pages: seq<PageReply>, i: nat, j: nat, k: nat)
    requires j < k
    requires forall m :: i <= m < i + k ==> Reply(pages, m).Page? && Reply(pages, m).records != []
    ensures Advance(pages, i, j) < Advance(pages, i, k)
    decreases j
  {
    if j == 0 {
      assert Reply(pages, i).Page? && Reply(pages, i).records != [];
    } else {
      AdvanceGrows(pages, i + 1, j - 1, k - 1);
    }
  }

  /** A run never asks for the same offset twice: its requests strictly
      increase, and from a non-negative start every request after the first
      is positive. */
  lemma RequestsIncrease(pages: seq<PageReply>, i: nat, offset: int, requested: seq<int>, error: Option<Exc>)
    requires Requests(pages, i, offset, requested, error)
    ensures forall j, k :: 0 <= j < k < |requested| ==> requested[j] < requested[k]
    ensures offset >= 0 ==> forall k :: 1 <= k < |requested| ==> requested[k] > 0
  {
    forall j, k | 0 <= j < k < |requested|
      ensures requested[j] < requested[k]
    {
      AdvanceGrows(pages, i, j, k);
    }
    if offset >= 0 {
      forall k | 1 <= k < |requested|
        ensures requested[k] > 0
      {
        AdvanceGrows(pages, i, 0, k);
      }
    }
  }

  /** The file a run left after its last checkpoint reopens (`Database(file_path)`)
      to the store as then saved, and the next fetch, answered yes, resumes at
      the offset the run would have requested next. */
  lemma ReopenResumes(saved: Db, offset: int)
    requires Valid(saved) && StatusOffset(saved.jobStatus) == Some(Int(offset)) && offset > 0
    ensures LoadFromFile(Json(Database.ToDict(saved))) == Ok(SaveToFile(saved))
    ensures Begin(SaveToFile(saved), true) == Ok(Start(SaveToFile(saved), offset))
  {
    LoadAfterSave(saved);
  }
}

=== FILE: text.dfy ===
/** String operations the store's name matching uses: `str.lower`,
    `str.find` and `str.join`. */
module Text {

  /** `str.lower` on one character, for ASCII, Latin-1 and the Croatian
      capitals Č, Ć, Đ, Š and Ž. Other characters are returned as they are. */
  function LowerChar(c: char): char {
    if 'A' <= c <= 'Z' then (c as int + 32) as char
    else if 'À' <= c <= 'Þ' && c != '×' then (c as int + 32) as char
    else if c == 'Č' || c == 'Ć' || c == 'Đ' || c == 'Š' || c == 'Ž' then (c as int + 1) as char
    else c
  }

  /** `s.lower()`. */
  function Lower(s: string): string {
    seq(|s|, i requires 0 <= i < |s| => LowerChar(s[i]))
  }

  /** `needle` occurs in `hay` starting at index `i`. */
  predicate OccursAt(hay: string, needle: string, i: int) {
    0 <= i && i + |needle| <= |hay| && hay[i..i + |needle|] == needle
  }

  /** `needle` is a substring of `hay`. */
  ghost predicate Occurs(hay: string, needle: string) {
    exists i :: OccursAt(hay, needle, i)
  }

  /** `hay.find(needle, i)`, given that no earlier index matches. */
  function FindFrom(hay: string, needle: string, i: nat): (r: int)
    requires forall j :: 0 <= j < i ==> !OccursAt(hay, needle, j)
    ensures r == -1 <==> !Occurs(hay, needle)
    ensures r != -1 ==> OccursAt(hay, needle, r) && forall j :: 0 <= j < r ==> !OccursAt(hay, needle, j)
    decreases |hay| - i
  {
    if i + |needle| > |hay| then
      assert forall j :: j >= i ==> !OccursAt(hay, needle, j);
      -1
    else if hay[i..i + |needle|] == needle then
      assert OccursAt(hay, needle, i);
      i
    else
      FindFrom(hay, needle, i + 1)
  }

  /** `hay.find(needle)`: the lowest index at which `needle` occurs, or -1. */
  function Find(hay: string, needle: string): (r: int)
    ensures r == -1 <==> !Occurs(hay, needle)
    ensures r != -1 ==> OccursAt(hay, needle, r) && forall j :: 0 <= j < r ==> !OccursAt(hay, needle, j)
  {
    FindFrom(hay, needle, 0)
  }

  /** `hay.find(needle) > -1`, the substring test the store writes. */
  predicate Contains(hay: string, needle: string) {
    Find(hay, needle) > -1
  }

  /** The test `hay.find(needle) > -1` holds exactly when `needle` is a substring. */
  lemma ContainsIffOccurs(hay: string, needle: string)
    ensures Contains(hay, needle) <==> Occurs(hay, needle)
  {
  }

  /** `sep.join(parts)`. */
  function Join(sep: string, parts: seq<string>): (r: string)
    ensures parts == [] ==> r == ""
    ensures |parts| == 1 ==> r == parts[0]
  {
    if parts == [] then ""
    else if |parts| == 1 then parts[0]
    else Join(sep, parts[..|parts| - 1]) + sep + parts[|parts| - 1]
  }

  /** Joining two non-empty runs of parts joins each and puts one separator
      between them. */
  lemma {:induction false} JoinAppend(sep: string, a: seq<string>, b: seq<string>)
    requires a != [] && b != []
    ensures Join(sep, a + b) == Join(sep, a) + sep + Join(sep, b)
    decreases |b|
  {
    var ab := a + b;
    var last := b[|b| - 1];
    assert |ab| > 1 && ab[|ab| - 1] == last;
    if |b| == 1 {
      assert ab[..|ab| - 1] == a;
      calc {
        Join(sep, ab);
        Join(sep, a) + sep + last;
      }
    } else {
      var front := b[..|b| - 1];
      assert ab[..|ab| - 1] == a + front;
      JoinAppend(sep, a, front);
      calc {
        Join(sep, ab);
        Join(sep, a + front) + sep + last;
        Join(sep, a) + sep + Join(sep, front) + sep + last;
        Join(sep, a) + sep + (Join(sep, front) + sep + last);
      }
    }
  }

  /** `sep.join` read from the front: the first part, the separator, and the
      join of the rest. */
  lemma JoinCons(sep: string, first: string, rest: seq<string>)
    requires rest != []
    ensures Join(sep, [first] + rest) == first + sep + Join(sep, rest)
  {
    JoinAppend(sep, [first], rest);
  }
}
